=== FILE: README.md ===
# ID-card data collection: a Dafny model of the form and submission core

The application lets an administrator design a form template, which is a title plus a list of field descriptors. Students submit answers and photos through the template's public slug. The administrator then lists, filters, sorts and exports the submissions, either as a spreadsheet or as a zip archive of the uploaded files. This project models the logic inside those Django models and views as pure functions over immutable records, and proves what it promises.

The model covers:

- `FormTemplate.save`: the first free slug among `base`, `base-1`, `base-2`, and so on.
- `StudentSubmission.generate_unique_id` and `StudentSubmission.save`: a 4-digit id, unique within the form, drawn only when none is set.
- The table constraints: unique slugs, unique `(form_template, unique_id)` pairs, and the default ordering.
- The filter and sort pipeline of the submissions page. Both export views repeat it verbatim, so it is written once (`Query.Select`) and used by all three.
- The class options of the submissions page.
- The validation walk of the public form, the upload naming, and the storing of files and answers.
- The spreadsheet layout and the zip archive members.

Modules, one file each:

| file | module | contents |
|---|---|---|
| base.dfy | `Base` | `Option`, `Result` |
| text.dfy | `Text` | the Python string behaviour relied on: `in`, `split(sep, 1)`, `str(int)`, `", ".join`, code-point `<`, `os.path.splitext`, `os.path.join` |
| models.dfy | `Models` | entities, slug allocation, id allocation, the two `save` methods against an in-memory table |
| ordering.dfy | `Ordering` | the database orderings and a stable sort by them |
| query.dfy | `Query` | search, class filter, allow-listed sort, class options, the submissions page |
| submit.dfy | `Submit` | the public submission endpoint |
| export.dfy | `Export` | the spreadsheet and zip exports |

Library and database behaviour that the source uses but does not define is passed in as the fields of `Models.Env` and left uninterpreted:

- Django's `slugify`
- lower-casing: one function `lower` stands for both Python's `str.lower` (used to find the class field) and the database's `Lower` and `icontains` folding (ASCII-only on SQLite). No proof depends on the two agreeing.
- the JSON text that `icontains` searches in a whole `data` object
- the text the database sorts a list answer by
- the URL that file storage returns for a stored path

Two more things are parameters of the functions that use them:

- The existence of files on disk is a `present: string -> bool` argument.
- The media root is a `root` argument.

The random draw of an id is a nondeterministic choice (`:|`) among the free ids.

## Model

| member | source | states |
|---|---|---|
| Models.BaseSlug | core/models.py:18 | The slug starts from `slugify(title)`, or from "form" when the title is empty. |
| Models.SlugCandidateInjective | core/models.py:19-23 | Distinct loop counters give distinct candidates (`base`, `base-1`, ...), so each turn of the loop tries a new slug. |
| Models.AllocateSlug | core/models.py:19-24 | The loop ends. It returns a slug that is not taken and that is the first free one in the sequence `base`, `base-1`, `base-2`, ...; every earlier candidate is taken. |
| Models.Upsert | core/models.py:25 | `super().save()` (here and at core/models.py:51) updates the row with the same primary key in place, leaving the others unchanged, or appends the row when its key is new. |
| Models.SaveTemplate | core/models.py:16-25 | A slug that is already set is kept, so editing never regenerates it. An empty slug is replaced by the first free candidate from the base slug against every stored slug, and that save always succeeds. The save fails exactly when another template already holds the slug (`unique=True`). On success the table gains or updates the template, and slugs and ids stay unique. |
| Models.UpsertKeepsUnique | core/models.py:11 | Writing a template whose slug no other template holds keeps slugs and ids unique across the table. |
| Models.RangeSize | core/models.py:40 | The id range 1000..9999 holds exactly 9000 values. |
| Models.FreeInRange | core/models.py:39-46 | A set with fewer elements than a range of numbers leaves some number of the range out. |
| Models.FreeInRangeIff | core/models.py:39-46 | Some number of a range is free exactly when fewer numbers of that range than its size are in use. |
| Models.IdAvailableIff | core/models.py:39-46 | The draw can end (some 4-digit id is free) exactly when fewer than 9000 of the ids 1000..9999 are in use in the form. Ids outside that range do not count. |
| Models.FreeIdExists | core/models.py:39-46 | While fewer than 9000 ids of the form are in use, a free 4-digit id exists, so the `while True` draw can succeed. |
| Models.GenerateUniqueId | core/models.py:37-46 | Whenever some 4-digit id is free, the draw returns an id in 1000..9999 that no submission of the same form holds. |
| Models.UsedIdsIgnoreOtherForms | core/models.py:42-45 | Ids used by other forms do not change the set of ids the draw must avoid. |
| Models.SaveSubmission | core/models.py:48-60 | An id is drawn only when none is set; the draw avoids every id of the form in the table. A preset id is kept unchanged. The save fails exactly when a different row of the same form holds the id (`unique_together`, line 60). On success the row with the same primary key is updated in place, or the row is inserted when its key is new. Per-form id uniqueness and primary-key uniqueness are preserved. |
| Models.ResaveKeepsUnique | core/models.py:48-60 | Writing a row whose id no other row of its form holds keeps ids unique per form and primary keys unique, for both the update and the insert. |
| Text.FindIffContains | core/views.py:261 | `needle in hay` holds exactly when the search for the first occurrence finds one. |
| Text.After | core/views.py:264 | `split('/media/', 1)[1]` is what follows the first occurrence of the separator. |
| Text.Decimal | core/views.py:142 | `str(unique_id)` is a non-empty string of digits with no leading zero. |
| Text.ParseDecimalOfDecimal | core/views.py:142 | Reading back the decimal text of an id gives the id. |
| Text.DecimalInjective | core/views.py:272 | Different ids have different decimal texts. |
| Text.DecimalOfFourDigits | core/views.py:142 | A 4-digit id prints as exactly four characters. |
| Text.JoinLength | core/views.py:211 | The length of `", ".join(items)` is the total length of the items plus one separator for each neighbouring pair. |
| Text.JoinItems | core/views.py:211 | The joined text holds each item at its offset (the earlier items, each followed by a separator), with the separator right after every item but the last. |
| Text.JoinSnoc | core/views.py:211 | Joining one more item appends the separator and that item. |
| Text.StrLessIrreflexive | core/views.py:99 | No string sorts before itself. |
| Text.StrLessTransitive | core/views.py:99 | Code-point order on strings is transitive. |
| Text.StrLessTotal | core/views.py:99 | Any two different strings are ordered one way or the other. |
| Text.Extension | core/views.py:141 | `os.path.splitext(p)[1]` is a suffix of `p` and a well-formed extension: empty, or a dot followed by no dot or slash. It is empty exactly when every dot of the last path component belongs to that component's leading run of dots. |
| Text.ExtensionOfAppend | core/views.py:269 | Appending an extension to a dot-free file name is undone by `splitext`. |
| Text.PathJoin | core/views.py:265 | `os.path.join(root, rel)` is `rel` when `rel` is absolute. Otherwise it ends in `rel`, and it is `root + "/" + rel` when `root` is non-empty and does not end in a slash. |
| Text.PathJoinAfterSlash | core/views.py:265 | A relative `rel` joined to an empty root, or to a root ending in a slash, gives exactly `root + rel`. |
| Ordering.KeyLessIsStrictTotal | core/views.py:105-107 | The order on nullable lower-cased answers is irreflexive, total and transitive. |
| Ordering.LeTotal | core/views.py:104-110 | Every ordering the views request compares any two submissions. |
| Ordering.LeTransitive | core/views.py:104-110 | Every ordering the views request, including the `submitted_at` tie-break, is transitive. |
| Ordering.Insert | core/views.py:104-110 | Inserting a row adds exactly that row. |
| Ordering.InsertSorted | core/views.py:104-110 | Inserting into a sorted sequence keeps it sorted. |
| Ordering.Sort | core/views.py:104-110 | `order_by` returns a rearrangement of its input (same multiset) in which every row may precede every later row. |
| Ordering.AnswerOrderMeaning | core/views.py:105-107 | When sorting by an answer, the lower-cased keys go up when `order == 'asc'` and down otherwise, and rows with equal keys appear earliest submission first. |
| Query.ReadRequest | core/views.py:88-100 | Each of `q`, `class_filter`, `sort_by` and `order` is read as sent. When it is absent, there is no search and no class filter, the sort defaults to `submitted_at`, and the order to `desc`. |
| Query.Filter | core/views.py:91 | A queryset filter keeps exactly the rows that satisfy the condition, each as often as it occurred. |
| Query.ClassField | core/views.py:92 | The class field is the first declared field whose lower-cased name contains "class". There is none exactly when no field qualifies. |
| Query.Narrow | core/views.py:88-95 | An empty `q` keeps every row. A non-empty `q` keeps exactly the rows whose JSON text or id text contains it, ignoring case. The class filter applies only when a non-empty class field and a non-empty filter exist, and then keeps exactly the rows whose answer equals the filter. |
| Query.SortSpecOf | core/views.py:100-110 | `Full Name` and `Roll Number` sort by their answer, ascending only for `order == 'asc'`. `unique_id` and `submitted_at` sort descending only for `order == 'desc'`. Any other key falls back to `submitted_at` descending. |
| Query.Select | core/views.py:87-110 | The pipeline returns exactly the rows both filters keep, with their multiplicities, sorted by the allow-listed order. |
| Query.SelectWithoutFiltersKeepsAll | core/views.py:88-95 | With no search and no applicable class filter, the pipeline only reorders the rows. |
| Query.FormSubmissions | core/models.py:61 | `form_template.submissions.all()` holds exactly that template's rows, in ascending `submitted_at` order. |
| Query.InsertUnique | core/views.py:99 | Adding a value to a strictly sorted list keeps it strictly sorted and adds exactly that value. |
| Query.StrLessTransitiveFrom | core/views.py:99 | A value below the head of a strictly sorted list is below all of it. |
| Query.SortedDistinct | core/views.py:99 | `sorted(set(xs))` is strictly increasing and holds exactly the values of `xs`. |
| Query.ClassAnswers | core/views.py:98-99 | `filter(None, values)` keeps exactly the non-empty string answers of the rows. |
| Query.DistinctClasses | core/views.py:96-99 | The class options fail exactly when some row answers the class field with a non-empty list, which `set` cannot hash. Otherwise they are sorted, duplicate-free, and hold exactly the non-empty string answers. |
| Query.ClassesIgnoreOrder | core/views.py:98 | Class options depend only on which rows are present, not on their order. |
| Query.ViewSubmissions | core/views.py:85-110 | The page shows the shared pipeline over the template's rows. The class options come from the rows left after filtering, and are empty without a class field. The page fails exactly when a filtered row has a list answer for the class field. |
| Submit.PostGet | core/views.py:151 | `request.POST.get` is the last value sent for the key, or nothing. |
| Submit.FileGet | core/views.py:138-139 | An upload counts as sent only when it is present and has a non-empty name. |
| Submit.UploadExtension | core/views.py:141 | The stored extension is the upload's own extension, or `.jpg` when it has none. |
| Submit.Walk | core/views.py:135-153 | The walk fails exactly when some field is required and left empty, and the error names the first such field in declared order. |
| Submit.UploadsComplete | core/views.py:137-144 | Every file field with a sent file gets a scheduled upload under `extra_uploads/{uid}{slugify(suffix)}{ext}`. |
| Submit.UploadsSound | core/views.py:137-144 | Only sent files of file fields are scheduled. |
| Submit.UploadsDistinct | core/views.py:144 | With distinct field names, no two scheduled uploads belong to one field. |
| Submit.WalkFiles | core/views.py:134-144 | An accepted walk schedules exactly the sent files, in declared order. |
| Submit.WalkKeepsKeys | core/views.py:147-151 | The walk never removes an answer already written. |
| Submit.WalkKeepsOthers | core/views.py:147-151 | The walk leaves alone any key that no field is named after. |
| Submit.WalkRecords | core/views.py:145-151 | The walk records every field that is not an upload. A missing optional file is recorded as null, a checkbox group as the list sent, and any other field as the last value sent or null. When names repeat, the last field wins. |
| Submit.CheckboxesNeverRejected | core/views.py:148-149 | A checkbox group in any template is never refused and is never the field an error names. An accepted submission records it, when no later field shares its name, as the list of values sent. |
| Submit.RequiredPhotos | core/views.py:156 | These are exactly the names of the required photo fields. |
| Submit.PhotoCheckNeverFires | core/views.py:155-158 | After an accepted walk, the check for a missing required photo can never fail. |
| Submit.StoreFiles | core/views.py:162-171 | Storing the files never drops an answer. |
| Submit.StoreFilesKeeps | core/views.py:162-171 | An answer that no stored file belongs to is kept as it was. |
| Submit.StoreFilesCovers | core/views.py:162-171 | Every field a file is stored for gets an answer. |
| Submit.StoreFilesWrites | core/views.py:169-171 | The last file stored for a field decides its answer: the URL of the stored path. |
| Submit.MainPhoto | core/views.py:161-166 | `original_photo` is saved as `original_photos/` (its `upload_to`, core/models.py:33) followed by the path of the first scheduled photo, for names Django keeps unchanged (see `## Left out`). There is one exactly when some scheduled file is a photo. |
| Submit.MainPhotoPresent | core/views.py:144 | A main photo is saved exactly when some photo field had a file sent. |
| Submit.UploadsMainPhoto | core/views.py:144 | Some scheduled file is a main photo exactly when some photo field had a file sent. |
| Submit.Recorded | core/views.py:137-171 | A field's saved answer, by kind: the storage URL of `extra_uploads/{uid}{slugify(suffix)}{ext}` for a sent file, null for a missing file, the list sent for a checkbox group, and the last value sent (or null) otherwise. |
| Submit.SubmitForm | core/views.py:128-176 | A refused field leaves the table unchanged and answers `{name} is required.` for the first empty required field. An accepted submission, under a new primary key, is appended with a fresh 4-digit id unique within the form. Its answers have exactly the declared field names as keys, each holding the field's recorded value when names are distinct. Its `original_photo` is `original_photos/` followed by the upload path of the first photo sent (for names Django keeps unchanged), and there is none when no photo was sent. |
| Submit.SavedKeys | core/views.py:131-171 | After an accepted walk and the storing of files, the saved answers have exactly the declared field names as keys. |
| Submit.WalkKeysWithin | core/views.py:131-153 | The field loop writes no key other than the names of the fields it walks. |
| Submit.StoreFilesKeysWithin | core/views.py:162-171 | Storing the files adds no key other than the fields the files belong to. |
| Submit.AnswersRecorded | core/views.py:135-171 | Every declared field has an answer in the saved row. With distinct names, that answer is the field's recorded value. |
| Submit.FieldRecorded | core/views.py:135-171 | As `AnswersRecorded`, for one field. |
| Submit.ValidateFiles | core/views.py:134-144 | An accepted walk from an empty draft schedules exactly the sent files. |
| Submit.UploadRecorded | core/views.py:162-171 | A field whose file was sent is answered, and with distinct names its answer is the URL of its stored path. |
| Submit.AnswerRecorded | core/views.py:147-171 | With distinct names, the answer the walk wrote for a field without an upload survives storing the files. |
| Export.FlattenListLength | core/views.py:211 | A list answer becomes one text whose length is the total length of its items plus two characters (", ") per neighbouring pair. |
| Export.Header | core/views.py:206 | The columns are "Unique ID", then every declared field name in order, then "Submitted At". |
| Export.FlatRecord | core/views.py:208-213 | A row's record holds the id, then every answer with lists joined, so a field named "Unique ID" overrides the id. The time always overrides. |
| Export.Row | core/views.py:215 | A record is laid out along the columns, and a column with no key is empty. |
| Export.RowCells | core/views.py:206-215 | Each row has one cell per column. The last cell is the submission time. The first is the id unless an answer overrides it. Each field column holds that field's flattened answer, or nothing when it was not answered. |
| Export.ExportSheet | core/views.py:203-215 | There is no sheet exactly when the shared pipeline selects nothing. Otherwise the sheet holds the header and one row per selected submission, in the pipeline's order. |
| Export.Layout | core/views.py:206-215 | The sheet for a selection has the header and one row per submission, in order. |
| Export.ZipUid | core/views.py:248 | Files are named after the 4-digit id, or after the row id when that is unset or 0. |
| Export.EntryFor | core/views.py:259-277 | A member is only ever made for a file that exists. |
| Export.EntryForMeaning | core/views.py:259-277 | A field yields a member exactly when its answer is a text containing "/media/" and the file `os.path.join(root, rel)` exists, where `rel` is the text after the first "/media/". The member reads that file and is named `{uid}{slugify(suffix)}{splitext(rel)[1]}`. |
| Export.CollectComplete | core/views.py:252-275 | Walking the fields collects every member some field yields. |
| Export.CollectSound | core/views.py:252-275 | Walking the fields collects only members some field yields. |
| Export.GatherAppend | core/views.py:247 | Members of consecutive submissions concatenate. |
| Export.GatherComplete | core/views.py:247 | Every member of every submission is gathered. |
| Export.GatherSound | core/views.py:247 | Only members of the submissions are gathered. |
| Export.FieldEntries | core/views.py:252-277 | Every member of one submission refers to a file that exists. |
| Export.Entries | core/views.py:247-279 | Every archived member refers to a file that exists, so missing files are skipped. |
| Export.EntriesAppend | core/views.py:247 | The members of consecutive selections concatenate, so a skipped file never affects later members. |
| Export.FieldEntriesComplete | core/views.py:252-275 | Every existing file of a submission's photo and document fields is archived. |
| Export.FieldEntriesSound | core/views.py:252-275 | Every member of a submission comes from one of its photo or document fields. |
| Export.EntriesComplete | core/views.py:246-279 | Every existing file of every selected submission is archived. |
| Export.EntriesSound | core/views.py:246-279 | Every archived member is the file of some file field of some selected submission. |
| Export.ExportArchive | core/views.py:241-279 | There is no archive exactly when the shared pipeline selects nothing. Otherwise the archive holds the members of the selection in the pipeline's order. |
| Export.LastIndexOfAppend | core/views.py:269 | The last slash of `extra_uploads/` followed by a slash-free name is the directory's own slash. |
| Export.AfterMediaPrefix | core/views.py:264 | For a URL `/media/` + `rel`, the text after the first "/media/" is `rel`. |
| Export.StoredNameRoundTrip | core/views.py:264-272 | Reading a stored upload path back through the archive code gives the same extension, provided the slugified suffix holds no slash or dot. |
| Export.ArchiveNameMatchesUpload | core/views.py:264-272 | Assume storage keeps the requested name and serves it under `/media/`. Then an upload with a 4-digit id that is still on disk is archived under exactly the name it was stored as (`extra_uploads/` + member name), read from the stored path. |
| Export.ArchiveNamesDistinct | core/views.py:272 | Files of submissions with different 4-digit ids never share an archive name. |

## Left out

- Authentication, login and logout, URL routing, the management command, the login form, the template filters and the browser script: these are framework wiring and UI.
- The dashboard, form editor, form duplication, the delete views, HTTP responses and flash messages: this is thin ORM and response glue. Their only modelled effect is the template `save` they call.
- `slugify`, `Lower`, the JSON text that `icontains` searches, and storage URLs: these are library and database behaviour the source does not define. They are uninterpreted functions in `Models.Env`. The example file name in the comment at core/views.py:271 depends on `slugify` and is not asserted.
- NULL ordering: a NULL answer or id sorts before every value, as SQLite orders; other databases may differ.
- Ties in `order_by`: the database leaves their order unspecified. The model's stable sort keeps them in the default `submitted_at` order.
- File storage renaming a name is not modelled: not for a collision (`default_storage.save` returning another name), not for `get_valid_name` cleaning, and not for names that are too long. The saved URL is that of the requested path, and `original_photo` is `original_photos/` followed by the requested path, provided the conditions of the `Submit.MainPhoto` line below hold.
- Submit.MainPhoto: the model assumes that upload extensions and slugified suffixes contain only characters that Django's `get_valid_name` keeps (letters, digits, `_`, `-`, `.`, no spaces) and that `filepath_to_uri` does not quote. It also assumes that `original_photos/` plus the stored path fits the 100-character limit of `original_photo`. Otherwise, at core/views.py:165, Django stores the photo under a cleaned or truncated name that `MainPhoto` does not give. For the same reason, `default_storage.url` would then not be `/media/` plus the path, which `Export.ArchiveNameMatchesUpload` takes as a hypothesis.
- Disk reads, zip writing, pandas/openpyxl serialisation and `strftime`: these are file I/O and foreign libraries. The archive is a list of (name, path) members, a sheet is a header plus cells, and times are opaque integers.
- Duplicate column names in the sheet (a field named "Unique ID" or "Submitted At"): pandas' handling of repeated columns is not modelled. `Export.RowCells` states the cells only for the cases that do not repeat a column.
- The randomness of `random.randint`: it is a nondeterministic choice. The check-then-write race between concurrent submissions is out of scope.
- Models.GenerateUniqueId: requires that some 4-digit id be free in the form (`Models.IdAvailable`), because the source loops forever otherwise.
- Models.SaveSubmission: requires that an id be preset or some 4-digit id be free in the form, for the same reason.
- Submit.SubmitForm: the new row's primary key is a parameter, required to be unused, as the database assigns a fresh one.
- Submit.SubmitForm: the unexpected-exception branch (status 500) is not modelled, and neither is the GET branch that only renders the form. Its recorded-answer clause is stated for templates with distinct field names. With repeated names the last field of a name wins (`Submit.WalkRecords`).
- Models.Value: answers of kinds other than text, list or null (numbers, booleans or objects in hand-written JSON) are not modelled in any view. The submission view never writes them. In the zip export (core/views.py:261), such an answer to a file field would behave as follows:
  - A non-zero number or `true` would make `'/media/' in file_url` raise a `TypeError` outside the `try`. That error path is not modelled.
  - `0`, `false`, `{}` and `[]` are falsy and are skipped by `if file_url`.
  - A non-empty object does not raise there, because `in` tests its keys. With a `/media/` key, `.split` fails inside the `try` (core/views.py:264) and the field is skipped.
- The `__str__` methods: they only produce display text.
- Filenames of the downloads (`{slugify(title)}_submissions.xlsx`, `{slugify(title)}_photos.zip`) are defined in `Export` without a contract.

=== FILE: base.dfy ===
/** Failure-compatible wrappers shared by the whole model. */
module Base {

  /** A value that may be absent: Python's `None` next to a real value. */
  datatype Option<+T> = None | Some(value: T) {

    /** The wrapped value, or `default` when absent (Python's `d.get(k, default)`). */
    function GetOr(default: T): T {
      match this
      case Some(v) => v
      case None => default
    }
  }

  /** The outcome of an operation that can be refused. */
  datatype Result<+R, +E> = Success(value: R) | Failure(error: E) {

    predicate IsFailure() {
      Failure?
    }

    function PropagateFailure<U>(): Result<U, E>
      requires Failure?
    {
      Failure(error)
    }

    function Extract(): R
      requires Success?
    {
      value
    }
  }
}

=== FILE: export.dfy ===
/**
  The two exports of a form's submissions. Both apply the listing's
  filters and ordering, refuse an empty selection, and then produce either
  a spreadsheet (one row per submission, one column per declared field
  between "Unique ID" and "Submitted At") or a zip archive holding every
  uploaded file that is still on disk, renamed after the submission's id.
 */
module Export {
  import opened Base
  import opened Text
  import opened Models
  import opened Ordering
  import opened Query
  import opened Submit

  // ---------------------------------------------------------------------------
  // The spreadsheet
  // ---------------------------------------------------------------------------

  /**
    One cell: a column the record has no key for, a JSON null, a number,
    a text, or the submission time (its `strftime` rendering is left out).
   */
  datatype Cell = Missing | NullCell | Number(n: nat) | TextCell(t: string) | Stamp(time: int)

  const IdColumn: string := "Unique ID"
  const TimeColumn: string := "Submitted At"

  /** A sheet: the column names and one row of cells per submission. */
  datatype Sheet = Sheet(header: seq<string>, rows: seq<seq<Cell>>)

  /** The cell for an answer: checkbox lists are joined with ", ". */
  function Flatten(v: Value): Cell {
    match v
    case Str(t) => TextCell(t)
    case List(items) => TextCell(Join(", ", items))
    case Null => NullCell
  }

  /** A flattened list holds its items and one separator between each neighbouring pair. */
  lemma FlattenListLength(items: seq<string>)
    requires |items| > 0
    ensures Flatten(List(items)).TextCell?
    ensures |Flatten(List(items)).t| == TotalLength(items) + 2 * (|items| - 1)
  {
    JoinLength(", ", items);
  }

  function IdCell(id: Option<nat>): Cell {
    match id
    case Some(n) => Number(n)
    case None => NullCell
  }

  /** The column names: the id, every declared field in order, the time. */
  function Header(fields: seq<Field>): (r: seq<string>)
    ensures |r| == |fields| + 2
    ensures r[0] == IdColumn && r[|r| - 1] == TimeColumn
    ensures forall j :: 0 <= j < |fields| ==> r[j + 1] == fields[j].name
  {
    [IdColumn] + seq(|fields|, j requires 0 <= j < |fields| => fields[j].name) + [TimeColumn]
  }

  /**
    The record built for one submission: the id first, then every stored
    answer (which may overwrite the id), then the time, which overwrites
    anything of that name.
   */
  function FlatRecord(s: Submission): (r: map<string, Cell>)
    ensures r.Keys == s.data.Keys + {IdColumn, TimeColumn}
    ensures r[TimeColumn] == Stamp(s.submittedAt)
    ensures forall k :: k in s.data && k != TimeColumn ==> r[k] == Flatten(s.data[k])
    ensures IdColumn !in s.data ==> r[IdColumn] == IdCell(s.uniqueId)
  {
    var answers := map k | k in s.data :: Flatten(s.data[k]);
    (map[IdColumn := IdCell(s.uniqueId)] + answers)[TimeColumn := Stamp(s.submittedAt)]
  }

  /** A record laid out along the header; a column without a key is `Missing`. */
  function Row(header: seq<string>, rec: map<string, Cell>): (r: seq<Cell>)
    ensures |r| == |header|
    ensures forall j :: 0 <= j < |header| ==> r[j] == (if header[j] in rec then rec[header[j]] else Missing)
  {
    seq(|header|, j requires 0 <= j < |header| => if header[j] in rec then rec[header[j]] else Missing)
  }

  /** What the cells of one submission's row hold. */
  lemma RowCells(fields: seq<Field>, s: Submission)
    ensures |Row(Header(fields), FlatRecord(s))| == |fields| + 2
    ensures Row(Header(fields), FlatRecord(s))[|fields| + 1] == Stamp(s.submittedAt)
    ensures IdColumn !in s.data ==> Row(Header(fields), FlatRecord(s))[0] == IdCell(s.uniqueId)
    ensures IdColumn in s.data ==> Row(Header(fields), FlatRecord(s))[0] == Flatten(s.data[IdColumn])
    ensures forall j :: 0 <= j < |fields| && fields[j].name != TimeColumn && fields[j].name in s.data ==>
              Row(Header(fields), FlatRecord(s))[j + 1] == Flatten(s.data[fields[j].name])
    ensures forall j :: 0 <= j < |fields| && fields[j].name !in s.data
                        && fields[j].name != IdColumn && fields[j].name != TimeColumn ==>
              Row(Header(fields), FlatRecord(s))[j + 1] == Missing
  {
    var h := Header(fields);
    assert h[|fields| + 1] == TimeColumn;
  }

  /**
    The spreadsheet export: the listing's selection, or nothing when the
    selection is empty (the view then redirects with an error message).
   */
  function ExportSheet(env: Env, t: FormTemplate, store: seq<Submission>, req: Request): (r: Option<Sheet>)
    ensures r.None? <==> |Selection(env, t, store, req)| == 0
    ensures r.Some? ==> r.value == Layout(t.fields, Selection(env, t, store, req))
  {
    var sel := Selection(env, t, store, req);
    if |sel| == 0 then None else Some(Layout(t.fields, sel))
  }

  /** The submissions an export covers: the listing's filters and order applied to the form's rows. */
  function Selection(env: Env, t: FormTemplate, store: seq<Submission>, req: Request): seq<Submission> {
    Select(env, t.fields, FormSubmissions(env, store, t.id), req)
  }

  /** The sheet for a selection: the header, then one row per submission in the selection's order. */
  function Layout(fields: seq<Field>, sel: seq<Submission>): (r: Sheet)
    ensures r.header == Header(fields) && |r.rows| == |sel|
    ensures forall i :: 0 <= i < |sel| ==> r.rows[i] == Row(Header(fields), FlatRecord(sel[i]))
  {
    var header := Header(fields);
    Sheet(header, seq(|sel|, i requires 0 <= i < |sel| => Row(header, FlatRecord(sel[i]))))
  }

  /** The downloaded file names: `{slugify(title)}_submissions.xlsx` and `{slugify(title)}_photos.zip`. */
  function SheetFileName(env: Env, title: string): string {
    env.slugify(title) + "_submissions.xlsx"
  }

  function ArchiveFileName(env: Env, title: string): string {
    env.slugify(title) + "_photos.zip"
  }

  // ---------------------------------------------------------------------------
  // The zip archive
  // ---------------------------------------------------------------------------

  const MediaMarker: string := "/media/"

  /** One archive member: the name inside the archive and the file it is read from. */
  datatype Entry = Entry(arcname: string, path: string)

  /** The id the archive names a submission's files after: its 4-digit id, or the row id when that is unset or 0. */
  function ZipUid(s: Submission): (r: nat)
    ensures s.uniqueId.Some? && s.uniqueId.value != 0 ==> r == s.uniqueId.value
    ensures s.uniqueId.None? || s.uniqueId.value == 0 ==> r == s.id
  {
    if s.uniqueId.Some? && s.uniqueId.value != 0 then s.uniqueId.value else s.id
  }

  /**
    The member for file field `f` of submission `s`: only a text answer
    holding "/media/" names a file; the part after the first "/media/" is
    resolved under the media root and taken only when it exists there.
    A list answer never qualifies (the view's lookup fails on it and the
    field is skipped).
   */
  function EntryFor(env: Env, root: string, present: string -> bool, uid: nat, f: Field, s: Submission): (r: Option<Entry>)
    ensures r.Some? ==> present(r.value.path)
  {
    if LinksMedia(s, f) then
      var rel := After(s.data[f.name].s, MediaMarker);
      var full := PathJoin(root, rel);
      if present(full) then Some(Entry(StoredName(env, uid, f, Extension(rel)), full)) else None
    else None
  }

  /** The answer to `f` is a text holding "/media/". */
  predicate LinksMedia(s: Submission, f: Field) {
    f.name in s.data && s.data[f.name].Str? && Contains(s.data[f.name].s, MediaMarker)
  }

  /**
    A field yields a member exactly when its answer links into the media
    directory and the file it names under the media root exists; the member
    is read from there and named after the id, the suffix and the extension.
   */
  lemma EntryForMeaning(env: Env, root: string, present: string -> bool, uid: nat, f: Field, s: Submission)
    ensures EntryFor(env, root, present, uid, f, s).Some? ==> LinksMedia(s, f)
    ensures LinksMedia(s, f) ==>
              var rel := After(s.data[f.name].s, MediaMarker);
              && (EntryFor(env, root, present, uid, f, s).Some? <==> present(PathJoin(root, rel)))
              && (EntryFor(env, root, present, uid, f, s).Some? ==>
                    EntryFor(env, root, present, uid, f, s).value == Entry(StoredName(env, uid, f, Extension(rel)), PathJoin(root, rel)))
  {
  }

  // Collecting members: the order-and-membership facts, stated once for any choice of member per field.

  /** The members `pick` yields over `fields`, in declared order. */
  function Collect(fields: seq<Field>, pick: Field -> Option<Entry>): seq<Entry> {
    if |fields| == 0 then []
    else (if pick(fields[0]).Some? then [pick(fields[0]).value] else []) + Collect(fields[1..], pick)
  }

  /** Every member some field yields is collected. */
  lemma {:induction false} CollectComplete(fields: seq<Field>, pick: Field -> Option<Entry>, i: int)
    requires 0 <= i < |fields| && pick(fields[i]).Some?
    ensures pick(fields[i]).value in Collect(fields, pick)
    decreases |fields|
  {
    if i > 0 {
      assert fields[1..][i - 1] == fields[i];
      CollectComplete(fields[1..], pick, i - 1);
    }
  }

  /** Only members some field yields are collected. */
  lemma {:induction false} CollectSound(fields: seq<Field>, pick: Field -> Option<Entry>, e: Entry)
    requires e in Collect(fields, pick)
    ensures exists i :: 0 <= i < |fields| && pick(fields[i]) == Some(e)
    decreases |fields|
  {
    if !(pick(fields[0]) == Some(e)) {
      var rest := fields[1..];
      CollectSound(rest, pick, e);
      var i :| 0 <= i < |rest| && pick(rest[i]) == Some(e);
      assert rest[i] == fields[i + 1];
    }
  }

  /** The members `per` yields for each submission, one submission after the other. */
  function Gather(subs: seq<Submission>, per: Submission -> seq<Entry>): seq<Entry> {
    if |subs| == 0 then [] else per(subs[0]) + Gather(subs[1..], per)
  }

  lemma {:induction false} GatherAppend(a: seq<Submission>, b: seq<Submission>, per: Submission -> seq<Entry>)
    ensures Gather(a + b, per) == Gather(a, per) + Gather(b, per)
    decreases |a|
  {
    if |a| == 0 {
      assert a + b == b;
    } else {
      assert (a + b)[0] == a[0];
      assert (a + b)[1..] == a[1..] + b;
      GatherAppend(a[1..], b, per);
    }
  }

  lemma {:induction false} GatherComplete(subs: seq<Submission>, per: Submission -> seq<Entry>, k: int, e: Entry)
    requires 0 <= k < |subs| && e in per(subs[k])
    ensures e in Gather(subs, per)
    decreases |subs|
  {
    if k > 0 {
      assert subs[1..][k - 1] == subs[k];
      GatherComplete(subs[1..], per, k - 1, e);
    }
  }

  lemma {:induction false} GatherSound(subs: seq<Submission>, per: Submission -> seq<Entry>, e: Entry)
    requires e in Gather(subs, per)
    ensures exists k :: 0 <= k < |subs| && e in per(subs[k])
    decreases |subs|
  {
    if e !in per(subs[0]) {
      var rest := subs[1..];
      GatherSound(rest, per, e);
      var k :| 0 <= k < |rest| && e in per(rest[k]);
      assert rest[k] == subs[k + 1];
    }
  }

  // The archive's members.

  /** The member a field of `s` contributes: only file fields are looked at, under the submission's archive id. */
  function FieldEntry(env: Env, root: string, present: string -> bool, f: Field, s: Submission): Option<Entry> {
    if IsFileKind(f.kind) then EntryFor(env, root, present, ZipUid(s), f, s) else None
  }

  function PickFor(env: Env, root: string, present: string -> bool, s: Submission): Field -> Option<Entry> {
    (f: Field) => FieldEntry(env, root, present, f, s)
  }

  function PerSubmission(env: Env, root: string, present: string -> bool, fields: seq<Field>): Submission -> seq<Entry> {
    (s: Submission) => FieldEntries(env, root, present, fields, s)
  }

  /** The members for one submission, over its template's file fields in declared order. */
  function FieldEntries(env: Env, root: string, present: string -> bool, fields: seq<Field>, s: Submission): (r: seq<Entry>)
    ensures forall e :: e in r ==> present(e.path)
  {
    var r := Collect(fields, PickFor(env, root, present, s));
    assert forall e :: e in r ==> present(e.path) by {
      forall e | e in r
        ensures present(e.path)
      {
        CollectSound(fields, PickFor(env, root, present, s), e);
      }
    }
    r
  }

  /** The members for a sequence of submissions, in order. */
  function Entries(env: Env, root: string, present: string -> bool, fields: seq<Field>, subs: seq<Submission>): (r: seq<Entry>)
    ensures forall e :: e in r ==> present(e.path)
  {
    var r := Gather(subs, PerSubmission(env, root, present, fields));
    assert forall e :: e in r ==> present(e.path) by {
      forall e | e in r
        ensures present(e.path)
      {
        GatherSound(subs, PerSubmission(env, root, present, fields), e);
      }
    }
    r
  }

  /** The members of two selections one after the other are the members of their concatenation. */
  lemma EntriesAppend(env: Env, root: string, present: string -> bool, fields: seq<Field>, a: seq<Submission>, b: seq<Submission>)
    ensures Entries(env, root, present, fields, a + b) == Entries(env, root, present, fields, a) + Entries(env, root, present, fields, b)
  {
    GatherAppend(a, b, PerSubmission(env, root, present, fields));
  }

  /** Every file field whose file exists contributes its member. */
  lemma FieldEntriesComplete(env: Env, root: string, present: string -> bool, fields: seq<Field>, s: Submission, i: int)
    requires 0 <= i < |fields| && FieldEntry(env, root, present, fields[i], s).Some?
    ensures FieldEntry(env, root, present, fields[i], s).value in FieldEntries(env, root, present, fields, s)
  {
    CollectComplete(fields, PickFor(env, root, present, s), i);
  }

  /** Every member comes from a file field of the submission. */
  lemma FieldEntriesSound(env: Env, root: string, present: string -> bool, fields: seq<Field>, s: Submission, e: Entry)
    requires e in FieldEntries(env, root, present, fields, s)
    ensures exists i :: 0 <= i < |fields| && FieldEntry(env, root, present, fields[i], s) == Some(e)
  {
    CollectSound(fields, PickFor(env, root, present, s), e);
  }

  /** Every existing file of every selected submission is archived. */
  lemma EntriesComplete(env: Env, root: string, present: string -> bool, fields: seq<Field>, subs: seq<Submission>, k: int, i: int)
    requires 0 <= k < |subs| && 0 <= i < |fields|
    requires FieldEntry(env, root, present, fields[i], subs[k]).Some?
    ensures FieldEntry(env, root, present, fields[i], subs[k]).value in Entries(env, root, present, fields, subs)
  {
    FieldEntriesComplete(env, root, present, fields, subs[k], i);
    GatherComplete(subs, PerSubmission(env, root, present, fields), k, FieldEntry(env, root, present, fields[i], subs[k]).value);
  }

  /** Every archived member is the file of some field of some selected submission. */
  lemma EntriesSound(env: Env, root: string, present: string -> bool, fields: seq<Field>, subs: seq<Submission>, e: Entry)
    requires e in Entries(env, root, present, fields, subs)
    ensures exists k, i :: 0 <= k < |subs| && 0 <= i < |fields| && FieldEntry(env, root, present, fields[i], subs[k]) == Some(e)
  {
    GatherSound(subs, PerSubmission(env, root, present, fields), e);
    var k :| 0 <= k < |subs| && e in FieldEntries(env, root, present, fields, subs[k]);
    FieldEntriesSound(env, root, present, fields, subs[k], e);
  }

  /**
    The zip export: the members for the listing's selection, or nothing
    when the selection is empty (the view then redirects with an error).
   */
  function ExportArchive(env: Env, t: FormTemplate, store: seq<Submission>, req: Request, root: string, present: string -> bool)
    : (r: Option<seq<Entry>>)
    ensures r.None? <==> |Selection(env, t, store, req)| == 0
    ensures r.Some? ==> r.value == Entries(env, root, present, t.fields, Selection(env, t, store, req))
  {
    var sel := Selection(env, t, store, req);
    if |sel| == 0 then None else Some(Entries(env, root, present, t.fields, sel))
  }

  // ---------------------------------------------------------------------------
  // Archive names against upload names
  // ---------------------------------------------------------------------------

  /** The last `c` of `a + b` is the final character of `a` when `b` holds no `c`. */
  lemma LastIndexOfAppend(a: string, b: string, c: char)
    requires |a| > 0 && a[|a| - 1] == c
    requires forall k :: 0 <= k < |b| ==> b[k] != c
    ensures LastIndexOf(a + b, c) == |a| - 1
  {
    var p := a + b;
    var r := LastIndexOf(p, c);
    assert p[|a| - 1] == c;
    assert forall k :: |a| <= k < |p| ==> p[k] == b[k - |a|];
  }

  /** The text after the first "/media/" of a URL that starts with it. */
  lemma AfterMediaPrefix(rel: string)
    ensures Contains(MediaMarker + rel, MediaMarker)
    ensures After(MediaMarker + rel, MediaMarker) == rel
  {
    var hay := MediaMarker + rel;
    assert OccursAt(hay, MediaMarker, 0);
    var r := After(hay, MediaMarker);
    var i :| 0 <= i && i + |MediaMarker| + |r| == |hay| && hay == hay[..i] + MediaMarker + r
             && forall j :: 0 <= j < i ==> !OccursAt(hay, MediaMarker, j);
    assert i == 0;
    assert hay == MediaMarker + r;
  }

  /**
    Reading a stored upload path back: the text after "/media/" is the path,
    and its extension is the one the name was built with, provided the
    slugified suffix holds no slash and no dot.
   */
  lemma StoredNameRoundTrip(env: Env, uid: nat, f: Field, ext: string)
    requires MinUniqueId <= uid <= MaxUniqueId
    requires IsExtension(ext)
    requires forall k :: 0 <= k < |env.slugify(Suffix(env, f))| ==>
               env.slugify(Suffix(env, f))[k] != '/' && env.slugify(Suffix(env, f))[k] != '.'
    ensures var rel := UploadDir + StoredName(env, uid, f, ext);
      && Contains(MediaMarker + rel, MediaMarker)
      && After(MediaMarker + rel, MediaMarker) == rel
      && StoredName(env, uid, f, Extension(rel)) == StoredName(env, uid, f, ext)
  {
    var slug := env.slugify(Suffix(env, f));
    var digits := Decimal(uid);
    var base := digits + slug;
    var stem := UploadDir + base;
    var rel := UploadDir + StoredName(env, uid, f, ext);
    assert rel == stem + ext;
    AfterMediaPrefix(rel);
    assert forall k :: 0 <= k < |base| ==> base[k] != '/' && base[k] != '.' by {
      assert forall k :: 0 <= k < |digits| ==> base[k] == digits[k] && IsDigit(digits[k]);
      assert forall k :: |digits| <= k < |base| ==> base[k] == slug[k - |digits|];
    }
    LastIndexOfAppend(UploadDir, base, '/');
    var sep := LastIndexOf(stem, '/');
    assert sep == |UploadDir| - 1;
    assert forall k :: sep < k < |stem| ==> stem[k] == base[k - |UploadDir|];
    assert PlainBasename(stem);
    ExtensionOfAppend(stem, ext);
  }

  /**
    When storage keeps the requested name and the URL it hands back is
    "/media/" followed by the stored path, a file uploaded under a 4-digit
    id and still on disk is archived under exactly the name it was stored
    as, read from the stored path under the media root.
   */
  lemma ArchiveNameMatchesUpload(env: Env, root: string, present: string -> bool, f: Field, u: Upload, s: Submission)
    requires s.uniqueId.Some? && MinUniqueId <= s.uniqueId.value <= MaxUniqueId
    requires f.name in s.data && s.data[f.name] == Str(MediaMarker + UploadPath(env, s.uniqueId.value, f, u))
    requires present(PathJoin(root, UploadPath(env, s.uniqueId.value, f, u)))
    requires forall k :: 0 <= k < |env.slugify(Suffix(env, f))| ==>
               env.slugify(Suffix(env, f))[k] != '/' && env.slugify(Suffix(env, f))[k] != '.'
    ensures var path := UploadPath(env, s.uniqueId.value, f, u);
      && EntryFor(env, root, present, ZipUid(s), f, s).Some?
      && path == UploadDir + EntryFor(env, root, present, ZipUid(s), f, s).value.arcname
      && EntryFor(env, root, present, ZipUid(s), f, s).value.path == PathJoin(root, path)
  {
    var uid := s.uniqueId.value;
    var path := UploadPath(env, uid, f, u);
    var ext := UploadExtension(u.name);
    assert path == UploadDir + StoredName(env, uid, f, ext);
    StoredNameRoundTrip(env, uid, f, ext);
    assert ZipUid(s) == uid;
    EntryFromLink(env, root, present, uid, f, s, path);
  }

  /** An answer "/media/" + `rel` naming a file on disk yields the member read from `rel` under the root. */
  lemma EntryFromLink(env: Env, root: string, present: string -> bool, uid: nat, f: Field, s: Submission, rel: string)
    requires f.name in s.data && s.data[f.name] == Str(MediaMarker + rel)
    requires present(PathJoin(root, rel))
    ensures EntryFor(env, root, present, uid, f, s) == Some(Entry(StoredName(env, uid, f, Extension(rel)), PathJoin(root, rel)))
  {
    AfterMediaPrefix(rel);
    assert LinksMedia(s, f);
    EntryForMeaning(env, root, present, uid, f, s);
  }

  /** Files of submissions with different 4-digit ids never share an archive name. */
  lemma ArchiveNamesDistinct(env: Env, uid1: nat, f1: Field, ext1: string, uid2: nat, f2: Field, ext2: string)
    requires MinUniqueId <= uid1 <= MaxUniqueId && MinUniqueId <= uid2 <= MaxUniqueId
    requires uid1 != uid2
    ensures StoredName(env, uid1, f1, ext1) != StoredName(env, uid2, f2, ext2)
  {
    DecimalOfFourDigits(uid1);
    DecimalOfFourDigits(uid2);
    DecimalInjective(uid1, uid2);
    var n1, n2 := StoredName(env, uid1, f1, ext1), StoredName(env, uid2, f2, ext2);
    assert n1[..4] == Decimal(uid1);
    assert n2[..4] == Decimal(uid2);
  }
}

=== FILE: models.dfy ===
/**
  The two stored records of the application, form templates and student
  submissions, with the identifier allocation their `save` methods perform:
  the slug de-collision loop of a template and the per-form 4-digit id of a
  submission.  The database is modelled as a sequence of rows; its uniqueness
  constraints are checked at write time as the database would.
 */
module Models {
  import opened Base
  import opened Text

  // ---------------------------------------------------------------------------
  // Entities
  // ---------------------------------------------------------------------------

  /** One stored answer: the JSON shapes the submission view writes into `data`. */
  datatype Value = Str(s: string) | List(items: seq<string>) | Null

  /** The `data` JSON object of a submission: answer per field name. */
  type Data = map<string, Value>

  /**
    One entry of a template's `form_fields`. `kind` is the JSON "type" string,
    `required` its truthiness, and `suffix` is `None` when the key is absent.
   */
  datatype Field = Field(name: string, kind: string, required: bool, suffix: Option<string>)

  const PhotoKind: string := "photo_croppable"
  const DocumentKind: string := "file_document"
  const CheckboxKind: string := "checkbox"

  /** The field types whose answer is an uploaded file. */
  predicate IsFileKind(kind: string) {
    kind == PhotoKind || kind == DocumentKind
  }

  /** A row of the template table; `slug == ""` means "not yet assigned". */
  datatype FormTemplate = FormTemplate(
    id: nat,
    admin: nat,
    title: string,
    slug: string,
    logo: Option<string>,
    fields: seq<Field>,
    createdAt: int)

  /**
    A row of the submission table. `id` is the database row id, `form` the
    owning template's id, `photo` the stored main photo, `submittedAt` an
    opaque, ordered timestamp and `uniqueId` the nullable 4-digit id.
   */
  datatype Submission = Submission(
    id: nat,
    form: nat,
    data: Data,
    photo: Option<string>,
    submittedAt: int,
    uniqueId: Option<nat>)

  /**
    Behaviour the application takes from libraries and the database without
    defining it: Django's `slugify`, lower-casing (Python's `str.lower` and
    the database `Lower`), the JSON text the database matches `icontains`
    against for a whole `data` object, the text the database sorts a
    non-text answer (a list) by, and the URL the file storage hands back
    for a saved path.
   */
  datatype Env = Env(
    slugify: string -> string,
    lower: string -> string,
    dataText: Data -> string,
    valueText: Value -> string,
    fileUrl: string -> string)

  /** The file-name suffix of a file field: its own `suffix`, else `-` plus the slugified name. */
  function Suffix(env: Env, f: Field): string {
    f.suffix.GetOr("-" + env.slugify(f.name))
  }

  /** The file name a stored upload gets: id, slugified suffix, extension. */
  function StoredName(env: Env, uid: nat, f: Field, ext: string): string {
    Decimal(uid) + env.slugify(Suffix(env, f)) + ext
  }

  // ---------------------------------------------------------------------------
  // Template slugs
  // ---------------------------------------------------------------------------

  /** The slug a title starts from: its slugified form, or "form" for an empty title. */
  function BaseSlug(env: Env, title: string): (r: string)
    ensures title == "" ==> r == "form"
    ensures title != "" ==> r == env.slugify(title)
  {
    if title == "" then "form" else env.slugify(title)
  }

  /** The n-th slug tried: `base`, then `base-1`, `base-2`, ... */
  function SlugCandidate(base: string, n: nat): string {
    if n == 0 then base else base + "-" + Decimal(n)
  }

  /** Different attempts never produce the same slug. */
  lemma SlugCandidateInjective(base: string, m: nat, n: nat)
    ensures SlugCandidate(base, m) == SlugCandidate(base, n) ==> m == n
  {
    if m != 0 && n != 0 && SlugCandidate(base, m) == SlugCandidate(base, n) {
      var cm := SlugCandidate(base, m);
      var cn := SlugCandidate(base, n);
      assert Decimal(m) == cm[|base| + 1..];
      assert Decimal(n) == cn[|base| + 1..];
      DecimalInjective(m, n);
    }
  }

  /** The slugs tried before attempt `n`. */
  ghost function Tried(base: string, n: nat): set<string> {
    set k | 0 <= k < n :: SlugCandidate(base, k)
  }

  lemma TriedStep(base: string, n: nat)
    ensures Tried(base, n + 1) == Tried(base, n) + {SlugCandidate(base, n)}
    ensures SlugCandidate(base, n) !in Tried(base, n)
  {
    forall k | 0 <= k < n
      ensures SlugCandidate(base, k) != SlugCandidate(base, n)
    {
      SlugCandidateInjective(base, k, n);
    }
  }

  /** `slug` is the first of `base`, `base-1`, `base-2`, ... that is not in `taken`. */
  ghost predicate FirstFreeSlug(slug: string, base: string, taken: set<string>) {
    && slug !in taken
    && exists n: nat :: slug == SlugCandidate(base, n)
                   && forall k :: 0 <= k < n ==> SlugCandidate(base, k) in taken
  }

  /**
    The de-collision loop of `FormTemplate.save`: try `base`, then `base-1`,
    `base-2`, ... until a slug no stored template uses. It terminates because
    every failed attempt uses up a different element of the finite `taken`.
   */
  method AllocateSlug(base: string, taken: set<string>) returns (slug: string)
    ensures FirstFreeSlug(slug, base, taken)
  {
    slug := base;
    var num := 1;
    ghost var left := taken;
    while slug in taken
      invariant 1 <= num
      invariant slug == SlugCandidate(base, num - 1)
      invariant forall k :: 0 <= k < num - 1 ==> SlugCandidate(base, k) in taken
      invariant left == taken - Tried(base, num - 1)
      decreases |left|
    {
      TriedStep(base, num - 1);
      assert slug in left;
      left := left - {slug};
      slug := base + "-" + Decimal(num);
      num := num + 1;
    }
    assert slug == SlugCandidate(base, num - 1) && forall k :: 0 <= k < num - 1 ==> SlugCandidate(base, k) in taken;
  }

  /** Every slug in use. */
  function Slugs(store: seq<FormTemplate>): set<string> {
    set t | t in store :: t.slug
  }

  /** The table's `unique=True` constraint on `slug`. */
  predicate SlugsUnique(store: seq<FormTemplate>) {
    forall i, j :: 0 <= i < j < |store| ==> store[i].slug != store[j].slug
  }

  /** The primary key of a template row. */
  function TemplatePk(t: FormTemplate): nat {
    t.id
  }

  /** The primary key of a submission row. */
  function SubmissionPk(s: Submission): nat {
    s.id
  }

  /** Primary keys are unique. */
  predicate PksUnique<T>(store: seq<T>, pk: T -> nat) {
    forall i, j :: 0 <= i < j < |store| ==> pk(store[i]) != pk(store[j])
  }

  /** Some row has primary key `k`. */
  predicate HasRow<T>(store: seq<T>, pk: T -> nat, k: nat) {
    exists i :: 0 <= i < |store| && pk(store[i]) == k
  }

  /**
    `Model.save()` of `t`: an UPDATE of the row with its primary key when
    there is one, an INSERT otherwise.
   */
  function Upsert<T>(store: seq<T>, pk: T -> nat, t: T): (r: seq<T>)
    ensures HasRow(store, pk, pk(t)) ==> |r| == |store|
    ensures !HasRow(store, pk, pk(t)) ==> r == store + [t]
    ensures forall i :: 0 <= i < |store| ==> r[i] == (if pk(store[i]) == pk(t) then t else store[i])
  {
    if HasRow(store, pk, pk(t)) then
      seq(|store|, i requires 0 <= i < |store| => if pk(store[i]) == pk(t) then t else store[i])
    else
      store + [t]
  }

  datatype StoreError = Conflict

  /**
    `FormTemplate.save`: a template without a slug gets the first free
    candidate derived from its title (checked against every stored slug);
    one that has a slug keeps it. The write then fails exactly when another
    row already uses the slug.
   */
  method SaveTemplate(env: Env, store: seq<FormTemplate>, t: FormTemplate)
    returns (r: Result<seq<FormTemplate>, StoreError>, saved: FormTemplate)
    requires SlugsUnique(store) && PksUnique(store, TemplatePk)
    ensures t.slug != "" ==> saved == t
    ensures t.slug == "" ==> saved == t.(slug := saved.slug)
                             && FirstFreeSlug(saved.slug, BaseSlug(env, t.title), Slugs(store))
    ensures t.slug == "" ==> r.Success?
    ensures r.Failure? <==> exists i :: 0 <= i < |store| && store[i].id != t.id && store[i].slug == saved.slug
    ensures r.Success? ==> r.value == Upsert(store, TemplatePk, saved)
                           && SlugsUnique(r.value) && PksUnique(r.value, TemplatePk)
  {
    saved := t;
    if t.slug == "" {
      var slug := AllocateSlug(BaseSlug(env, t.title), Slugs(store));
      saved := t.(slug := slug);
      assert forall i :: 0 <= i < |store| ==> store[i].slug in Slugs(store);
    }
    if exists i :: 0 <= i < |store| && store[i].id != t.id && store[i].slug == saved.slug {
      r := Failure(Conflict);
    } else {
      var next := Upsert(store, TemplatePk, saved);
      UpsertKeepsUnique(store, saved);
      r := Success(next);
    }
  }

  lemma UpsertKeepsUnique(store: seq<FormTemplate>, t: FormTemplate)
    requires SlugsUnique(store) && PksUnique(store, TemplatePk)
    requires forall i :: 0 <= i < |store| && store[i].id != t.id ==> store[i].slug != t.slug
    ensures SlugsUnique(Upsert(store, TemplatePk, t)) && PksUnique(Upsert(store, TemplatePk, t), TemplatePk)
  {
    var r := Upsert(store, TemplatePk, t);
    if !HasRow(store, TemplatePk, t.id) {
      assert forall i :: 0 <= i < |store| ==> store[i].id != t.id;
    }
  }

  // ---------------------------------------------------------------------------
  // Submission ids
  // ---------------------------------------------------------------------------

  const MinUniqueId: nat := 1000
  const MaxUniqueId: nat := 9999

  /** The ids already taken by submissions of template `form`. */
  function UsedIds(subs: seq<Submission>, form: nat): set<nat> {
    set s | s in subs && s.form == form && s.uniqueId.Some? :: s.uniqueId.value
  }

  /** The `unique_together = ('form_template', 'unique_id')` constraint (NULL ids never clash). */
  predicate UniquePerForm(subs: seq<Submission>) {
    forall i, j :: 0 <= i < j < |subs| && subs[i].form == subs[j].form && subs[i].uniqueId.Some?
      ==> subs[i].uniqueId != subs[j].uniqueId
  }

  /** The numbers `lo <= i < hi`. */
  function Range(lo: nat, hi: nat): (r: set<nat>)
    ensures forall i :: i in r <==> lo <= i < hi
    decreases hi - lo
  {
    if lo >= hi then {} else Range(lo, hi - 1) + {hi - 1}
  }

  lemma {:induction false} RangeSize(lo: nat, hi: nat)
    requires lo <= hi
    ensures |Range(lo, hi)| == hi - lo
    decreases hi - lo
  {
    if lo < hi {
      RangeSize(lo, hi - 1);
    }
  }

  /** A set smaller than a range leaves some number of the range out. */
  lemma FreeInRange(lo: nat, hi: nat, used: set<nat>)
    requires lo <= hi && |used| < hi - lo
    ensures exists i: nat :: lo <= i < hi && i !in used
  {
    var all := Range(lo, hi);
    RangeSize(lo, hi);
    var free := all - used;
    var shared := all * used;
    assert all == free + shared && free * shared == {};
    assert used == shared + (used - all) && shared * (used - all) == {};
    var i :| i in free;
  }

  /** Some 4-digit id is not in `used`: exactly when the retry loop of `generate_unique_id` can end. */
  predicate IdAvailable(used: set<nat>) {
    exists i: nat :: MinUniqueId <= i <= MaxUniqueId && i !in used
  }

  /** A number of a range is free exactly when fewer numbers of the range than its size are in use. */
  lemma FreeInRangeIff(lo: nat, hi: nat, used: set<nat>)
    requires lo <= hi
    ensures (exists i: nat :: lo <= i < hi && i !in used) <==> |used * Range(lo, hi)| < hi - lo
  {
    var all := Range(lo, hi);
    var inside := used * all;
    RangeSize(lo, hi);
    if |inside| < hi - lo {
      FreeInRange(lo, hi, inside);
      var i: nat :| lo <= i < hi && i !in inside;
      assert i in all;
    }
    if exists i: nat :: lo <= i < hi && i !in used {
      var i: nat :| lo <= i < hi && i !in used;
      ProperSubsetSmaller(inside, all, i);
    }
  }

  /** A subset that misses an element of the whole is smaller than it. */
  lemma ProperSubsetSmaller(a: set<nat>, b: set<nat>, x: nat)
    requires a <= b && x in b && x !in a
    ensures |a| < |b|
  {
    var rest := b - a - {x};
    assert b == (a + {x}) + rest;
    assert (a + {x}) * rest == {};
    assert a * {x} == {};
  }

  /** A 4-digit id is free exactly when fewer than 9000 of the 4-digit ids are in use; ids outside 1000..9999 do not matter. */
  lemma IdAvailableIff(used: set<nat>)
    ensures IdAvailable(used) <==> |used * Range(MinUniqueId, MaxUniqueId + 1)| < 9000
  {
    FreeInRangeIff(MinUniqueId, MaxUniqueId + 1, used);
  }

  /** In particular, with fewer than 9000 ids in use some 4-digit id is still free. */
  lemma FreeIdExists(used: set<nat>)
    requires |used| < 9000
    ensures IdAvailable(used)
  {
    FreeInRange(MinUniqueId, MaxUniqueId + 1, used);
  }

  /**
    `StudentSubmission.generate_unique_id`: a random draw from 1000..9999,
    repeated until no submission of the same form has it. The draw is a
    nondeterministic choice among the free ids; that a free id exists is
    exactly what makes the retry loop end.
   */
  method GenerateUniqueId(subs: seq<Submission>, form: nat) returns (id: nat)
    requires IdAvailable(UsedIds(subs, form))
    ensures MinUniqueId <= id <= MaxUniqueId
    ensures id !in UsedIds(subs, form)
    ensures forall s :: s in subs && s.form == form ==> s.uniqueId != Some(id)
  {
    id :| MinUniqueId <= id <= MaxUniqueId && id !in UsedIds(subs, form);
  }

  /** Submissions of other forms do not affect which ids a form has in use. */
  lemma UsedIdsIgnoreOtherForms(subs: seq<Submission>, others: seq<Submission>, form: nat)
    requires forall s :: s in others ==> s.form != form
    ensures UsedIds(subs + others, form) == UsedIds(subs, form)
  {
  }

  /**
    `StudentSubmission.save`: allocate an id only when none is set (the
    draw avoids every id of the form in the table, the row's own stored one
    included), then write the row by primary key. The database refuses the
    write when a different row of the same form holds the id.
   */
  method SaveSubmission(store: seq<Submission>, s: Submission)
    returns (r: Result<seq<Submission>, StoreError>, saved: Submission)
    requires s.uniqueId.Some? || IdAvailable(UsedIds(store, s.form))
    ensures saved.uniqueId.Some?
    ensures s.uniqueId.Some? ==> saved == s
    ensures s.uniqueId.None? ==> saved == s.(uniqueId := saved.uniqueId)
                                 && MinUniqueId <= saved.uniqueId.value <= MaxUniqueId
                                 && saved.uniqueId.value !in UsedIds(store, s.form)
                                 && r.Success?
    ensures r.Failure? <==> exists i :: 0 <= i < |store| && store[i].id != s.id
                                        && store[i].form == s.form && store[i].uniqueId == saved.uniqueId
    ensures r.Success? ==> r.value == Upsert(store, SubmissionPk, saved)
    ensures r.Success? && UniquePerForm(store) && PksUnique(store, SubmissionPk) ==>
              UniquePerForm(r.value) && PksUnique(r.value, SubmissionPk)
  {
    saved := s;
    if s.uniqueId.None? {
      var id := GenerateUniqueId(store, s.form);
      saved := s.(uniqueId := Some(id));
      assert forall i :: 0 <= i < |store| && store[i].form == s.form ==> store[i] in store;
    }
    if exists i :: 0 <= i < |store| && store[i].id != s.id && store[i].form == s.form && store[i].uniqueId == saved.uniqueId {
      r := Failure(Conflict);
    } else {
      r := Success(Upsert(store, SubmissionPk, saved));
      if UniquePerForm(store) && PksUnique(store, SubmissionPk) {
        ResaveKeepsUnique(store, saved);
      }
    }
  }

  /** Writing a row whose id no other row of its form holds keeps ids unique per form and primary keys unique. */
  lemma ResaveKeepsUnique(store: seq<Submission>, s: Submission)
    requires UniquePerForm(store) && PksUnique(store, SubmissionPk)
    requires forall i :: 0 <= i < |store| && store[i].id != s.id && store[i].form == s.form ==> store[i].uniqueId != s.uniqueId
    ensures UniquePerForm(Upsert(store, SubmissionPk, s)) && PksUnique(Upsert(store, SubmissionPk, s), SubmissionPk)
  {
    var r := Upsert(store, SubmissionPk, s);
    if !HasRow(store, SubmissionPk, s.id) {
      assert forall i :: 0 <= i < |store| ==> store[i].id != s.id;
    }
  }
}

=== FILE: ordering.dfy ===
/**
  The orders the submissions list can be sorted in, as the database applies
  them: by the lower-cased text of an answer (ties by submission time,
  earliest first), by the 4-digit id, or by submission time. NULL sorts
  before every value, as SQLite does.
 */
module Ordering {
  import opened Base
  import opened Text
  import opened Models

  datatype SortSpec =
    | ByAnswer(field: string, ascending: bool)
    | ByUniqueId(descending: bool)
    | BySubmittedAt(descending: bool)

  /** `Lower(data__<field>)`: NULL for a missing key or a JSON null, else the lower-cased text. */
  function AnswerKey(env: Env, s: Submission, field: string): Option<string> {
    if field !in s.data then None
    else match s.data[field]
      case Null => None
      case Str(t) => Some(env.lower(t))
      case List(_) => Some(env.lower(env.valueText(s.data[field])))
  }

  /** Strict database order on nullable text keys. */
  predicate KeyLess(a: Option<string>, b: Option<string>) {
    match a
    case None => b.Some?
    case Some(x) => b.Some? && StrLess(x, b.value)
  }

  /** Non-strict database order on nullable ids. */
  predicate IdAtMost(a: Option<nat>, b: Option<nat>) {
    a.None? || (b.Some? && a.value <= b.value)
  }

  /** `a` may come before `b` in an ordering by `spec`. */
  predicate Le(env: Env, spec: SortSpec, a: Submission, b: Submission) {
    match spec
    case ByAnswer(f, asc) =>
      var ka := AnswerKey(env, a, f);
      var kb := AnswerKey(env, b, f);
      if ka == kb then a.submittedAt <= b.submittedAt
      else if asc then KeyLess(ka, kb) else KeyLess(kb, ka)
    case ByUniqueId(desc) =>
      if desc then IdAtMost(b.uniqueId, a.uniqueId) else IdAtMost(a.uniqueId, b.uniqueId)
    case BySubmittedAt(desc) =>
      if desc then b.submittedAt <= a.submittedAt else a.submittedAt <= b.submittedAt
  }

  lemma KeyLessIsStrictTotal(a: Option<string>, b: Option<string>, c: Option<string>)
    ensures !KeyLess(a, a)
    ensures a == b || KeyLess(a, b) || KeyLess(b, a)
    ensures KeyLess(a, b) && KeyLess(b, c) ==> KeyLess(a, c)
  {
    if a.Some? {
      StrLessIrreflexive(a.value);
      if b.Some? {
        StrLessTotal(a.value, b.value);
        if c.Some? && KeyLess(a, b) && KeyLess(b, c) {
          StrLessTransitive(a.value, b.value, c.value);
        }
      }
    }
  }

  /** Any two submissions are comparable. */
  lemma LeTotal(env: Env, spec: SortSpec, a: Submission, b: Submission)
    ensures Le(env, spec, a, b) || Le(env, spec, b, a)
  {
    if spec.ByAnswer? {
      var f := spec.field;
      KeyLessIsStrictTotal(AnswerKey(env, a, f), AnswerKey(env, b, f), AnswerKey(env, b, f));
    }
  }

  lemma LeTransitive(env: Env, spec: SortSpec, a: Submission, b: Submission, c: Submission)
    requires Le(env, spec, a, b) && Le(env, spec, b, c)
    ensures Le(env, spec, a, c)
  {
    if spec.ByAnswer? {
      var f := spec.field;
      var ka, kb, kc := AnswerKey(env, a, f), AnswerKey(env, b, f), AnswerKey(env, c, f);
      KeyLessIsStrictTotal(ka, kb, kc);
      KeyLessIsStrictTotal(kc, kb, ka);
      KeyLessIsStrictTotal(ka, kc, ka);
    }
  }

  /** Every earlier element may come before every later one. */
  predicate Sorted(env: Env, spec: SortSpec, xs: seq<Submission>) {
    forall i, j :: 0 <= i < j < |xs| ==> Le(env, spec, xs[i], xs[j])
  }

  /** Places `x` before the first element it may precede. */
  function Insert(env: Env, spec: SortSpec, x: Submission, xs: seq<Submission>): (r: seq<Submission>)
    ensures multiset(r) == multiset(xs) + multiset{x}
    ensures |r| == |xs| + 1
  {
    if |xs| == 0 then [x]
    else if Le(env, spec, x, xs[0]) then [x] + xs
    else
      assert xs == [xs[0]] + xs[1..];
      [xs[0]] + Insert(env, spec, x, xs[1..])
  }

  lemma {:induction false} InsertSorted(env: Env, spec: SortSpec, x: Submission, xs: seq<Submission>)
    requires Sorted(env, spec, xs)
    ensures Sorted(env, spec, Insert(env, spec, x, xs))
    decreases |xs|
  {
    var r := Insert(env, spec, x, xs);
    if |xs| == 0 {
    } else if Le(env, spec, x, xs[0]) {
      assert r == [x] + xs;
      forall i, j | 0 <= i < j < |r|
        ensures Le(env, spec, r[i], r[j])
      {
        if i == 0 && j > 1 {
          LeTransitive(env, spec, x, xs[0], xs[j - 1]);
        }
      }
    } else {
      var rest := xs[1..];
      assert Sorted(env, spec, rest) by {
        assert forall k :: 0 <= k < |rest| ==> rest[k] == xs[k + 1];
      }
      LeTotal(env, spec, x, xs[0]);
      InsertSorted(env, spec, x, rest);
      var tail := Insert(env, spec, x, rest);
      assert r == [xs[0]] + tail;
      HeadBelowInsert(env, spec, x, xs);
      forall i, j | 0 <= i < j < |r|
        ensures Le(env, spec, r[i], r[j])
      {
        if i > 0 {
          assert r[i] == tail[i - 1] && r[j] == tail[j - 1];
        }
      }
    }
  }

  /** When `x` does not go first, the head of a sorted `xs` may precede everything it is inserted into. */
  lemma HeadBelowInsert(env: Env, spec: SortSpec, x: Submission, xs: seq<Submission>)
    requires Sorted(env, spec, xs) && |xs| > 0 && Le(env, spec, xs[0], x)
    ensures forall j :: 0 <= j < |Insert(env, spec, x, xs[1..])| ==> Le(env, spec, xs[0], Insert(env, spec, x, xs[1..])[j])
  {
    var rest := xs[1..];
    var tail := Insert(env, spec, x, rest);
    forall j | 0 <= j < |tail|
      ensures Le(env, spec, xs[0], tail[j])
    {
      assert tail[j] in multiset(tail);
      if tail[j] != x {
        assert tail[j] in multiset(rest);
        var k :| 0 <= k < |rest| && rest[k] == tail[j];
        assert xs[k + 1] == tail[j];
      }
    }
  }

  /**
    The order the database returns rows in for `order_by(spec)`: a
    rearrangement of the input in which every row may precede the next.
   */
  function Sort(env: Env, spec: SortSpec, xs: seq<Submission>): (r: seq<Submission>)
    ensures multiset(r) == multiset(xs)
    ensures |r| == |xs|
    ensures Sorted(env, spec, r)
  {
    if |xs| == 0 then []
    else
      assert xs == [xs[0]] + xs[1..];
      var rest := Sort(env, spec, xs[1..]);
      InsertSorted(env, spec, xs[0], rest);
      Insert(env, spec, xs[0], rest)
  }

  /**
    What an answer ordering means for the caller: keys go up (or down), and
    rows with the same key appear earliest submission first.
   */
  lemma AnswerOrderMeaning(env: Env, f: string, asc: bool, r: seq<Submission>, i: int, j: int)
    requires Sorted(env, ByAnswer(f, asc), r)
    requires 0 <= i < j < |r|
    ensures asc ==> !KeyLess(AnswerKey(env, r[j], f), AnswerKey(env, r[i], f))
    ensures !asc ==> !KeyLess(AnswerKey(env, r[i], f), AnswerKey(env, r[j], f))
    ensures AnswerKey(env, r[i], f) == AnswerKey(env, r[j], f) ==> r[i].submittedAt <= r[j].submittedAt
  {
    var ki, kj := AnswerKey(env, r[i], f), AnswerKey(env, r[j], f);
    assert Le(env, ByAnswer(f, asc), r[i], r[j]);
    KeyLessIsStrictTotal(ki, kj, ki);
  }
}

=== FILE: query.dfy ===
/**
  The filter-and-sort pipeline of the submissions page, which both export
  views repeat line for line: an optional case-insensitive text search, an
  optional exact match on the form's "class" field, and an allow-listed sort.
  `Select` is that pipeline, defined once and used by all three views.
 */
module Query {
  import opened Base
  import opened Text
  import opened Models
  import opened Ordering

  // ---------------------------------------------------------------------------
  // Request parameters
  // ---------------------------------------------------------------------------

  /** The GET parameters the pipeline reads. */
  datatype Request = Request(q: string, classFilter: string, sortBy: string, order: string)

  function Param(params: map<string, string>, key: string, default: string): string {
    if key in params then params[key] else default
  }

  /** Reads the query string with the views' defaults: no search, no class, newest first. */
  function ReadRequest(params: map<string, string>): (r: Request)
    ensures "q" !in params ==> r.q == ""
    ensures "class_filter" !in params ==> r.classFilter == ""
    ensures "sort_by" !in params ==> r.sortBy == "submitted_at"
    ensures "order" !in params ==> r.order == "desc"
    ensures "q" in params ==> r.q == params["q"]
    ensures "class_filter" in params ==> r.classFilter == params["class_filter"]
    ensures "sort_by" in params ==> r.sortBy == params["sort_by"]
    ensures "order" in params ==> r.order == params["order"]
  {
    Request(
      Param(params, "q", ""),
      Param(params, "class_filter", ""),
      Param(params, "sort_by", "submitted_at"),
      Param(params, "order", "desc"))
  }

  // ---------------------------------------------------------------------------
  // Filtering
  // ---------------------------------------------------------------------------

  /** The elements of `xs` that satisfy `p`, each as often as in `xs`, in their original order. */
  function Filter(xs: seq<Submission>, p: Submission -> bool): (r: seq<Submission>)
    ensures forall x :: multiset(r)[x] == if p(x) then multiset(xs)[x] else 0
    ensures forall i :: 0 <= i < |r| ==> p(r[i])
    ensures |r| <= |xs|
  {
    if |xs| == 0 then []
    else
      assert xs == [xs[0]] + xs[1..];
      (if p(xs[0]) then [xs[0]] else []) + Filter(xs[1..], p)
  }

  /**
    `Q(data__icontains=q) | Q(unique_id__icontains=q)`: the query occurs,
    ignoring case, in the stored JSON text of the answers or in the decimal
    text of the id (a NULL id never matches).
   */
  predicate TextMatch(env: Env, q: string, s: Submission) {
    || Contains(env.lower(env.dataText(s.data)), env.lower(q))
    || (s.uniqueId.Some? && Contains(env.lower(Decimal(s.uniqueId.value)), env.lower(q)))
  }

  /** The text search keeps a row when no query is given or the row matches it. */
  predicate PassesSearch(env: Env, q: string, s: Submission) {
    q == "" || TextMatch(env, q, s)
  }

  /** A field name designates the categorical field when its lower-cased form contains "class". */
  predicate IsClassName(env: Env, name: string) {
    Contains(env.lower(name), "class")
  }

  /** The first declared field whose name designates it as the categorical field. */
  function ClassField(env: Env, fields: seq<Field>): (r: Option<string>)
    ensures r.None? <==> forall i :: 0 <= i < |fields| ==> !IsClassName(env, fields[i].name)
    ensures r.Some? ==> exists i :: 0 <= i < |fields| && fields[i].name == r.value
                                    && IsClassName(env, fields[i].name)
                                    && forall j :: 0 <= j < i ==> !IsClassName(env, fields[j].name)
  {
    if |fields| == 0 then None
    else if IsClassName(env, fields[0].name) then Some(fields[0].name)
    else
      var r := ClassField(env, fields[1..]);
      assert forall k :: 0 <= k < |fields| - 1 ==> fields[1..][k] == fields[k + 1];
      r
  }

  /** The class filter applies only when there is a (non-empty) class field and a filter value. */
  predicate ClassFilterApplies(field: Option<string>, classFilter: string) {
    field.Some? && field.value != "" && classFilter != ""
  }

  /** `data__<field> = class_filter`: the stored answer is exactly that string. */
  predicate ClassMatch(field: string, classFilter: string, s: Submission) {
    field in s.data && s.data[field] == Str(classFilter)
  }

  predicate PassesClass(field: Option<string>, classFilter: string, s: Submission) {
    !ClassFilterApplies(field, classFilter) || ClassMatch(field.value, classFilter, s)
  }

  /** A submission survives both filters of the request. */
  predicate Keeps(env: Env, fields: seq<Field>, req: Request, s: Submission) {
    PassesSearch(env, req.q, s) && PassesClass(ClassField(env, fields), req.classFilter, s)
  }

  /** Both filters, text search first. */
  function Narrow(env: Env, fields: seq<Field>, subs: seq<Submission>, req: Request): (r: seq<Submission>)
    ensures forall s :: multiset(r)[s] == if Keeps(env, fields, req, s) then multiset(subs)[s] else 0
  {
    var searched := if req.q != "" then Filter(subs, (s: Submission) => TextMatch(env, req.q, s)) else subs;
    var field := ClassField(env, fields);
    if ClassFilterApplies(field, req.classFilter) then
      Filter(searched, (s: Submission) => ClassMatch(field.value, req.classFilter, s))
    else searched
  }

  // ---------------------------------------------------------------------------
  // Sorting
  // ---------------------------------------------------------------------------

  /** The answer fields the list can be sorted by. */
  const SortableAnswers: set<string> := {"Full Name", "Roll Number"}

  /**
    The allow-listed sort: an answer field sorts ascending only for
    `order == "asc"`; `unique_id` and `submitted_at` sort descending only for
    `order == "desc"`; anything else falls back to newest first.
   */
  function SortSpecOf(sortBy: string, order: string): (r: SortSpec)
    ensures r.ByAnswer? <==> sortBy in SortableAnswers
    ensures r.ByAnswer? ==> r.field == sortBy && (r.ascending <==> order == "asc")
    ensures r.ByUniqueId? <==> sortBy == "unique_id"
    ensures r.ByUniqueId? ==> (r.descending <==> order == "desc")
    ensures sortBy == "submitted_at" ==> r == BySubmittedAt(order == "desc")
    ensures sortBy !in SortableAnswers && sortBy !in {"unique_id", "submitted_at"} ==> r == BySubmittedAt(true)
  {
    if sortBy in SortableAnswers then ByAnswer(sortBy, order == "asc")
    else if sortBy == "unique_id" then ByUniqueId(order == "desc")
    else if sortBy == "submitted_at" then BySubmittedAt(order == "desc")
    else BySubmittedAt(true)
  }

  /**
    The pipeline shared by the submissions page and both exports: exactly
    the submissions both filters keep, each once per occurrence, ordered by
    the requested sort.
   */
  function Select(env: Env, fields: seq<Field>, subs: seq<Submission>, req: Request): (r: seq<Submission>)
    ensures forall s :: multiset(r)[s] == if Keeps(env, fields, req, s) then multiset(subs)[s] else 0
    ensures Sorted(env, SortSpecOf(req.sortBy, req.order), r)
  {
    Sort(env, SortSpecOf(req.sortBy, req.order), Narrow(env, fields, subs, req))
  }

  /** With no search and no class filter, the pipeline only reorders: it drops nothing. */
  lemma SelectWithoutFiltersKeepsAll(env: Env, fields: seq<Field>, subs: seq<Submission>, req: Request)
    requires req.q == "" && (ClassField(env, fields).None? || req.classFilter == "")
    ensures multiset(Select(env, fields, subs, req)) == multiset(subs)
  {
    var r := Select(env, fields, subs, req);
    assert forall s :: multiset(r)[s] == multiset(subs)[s];
  }

  /**
    `form_template.submissions.all()`: the submissions of template `form`,
    in the model's default order (`submitted_at` ascending).
   */
  function FormSubmissions(env: Env, store: seq<Submission>, form: nat): (r: seq<Submission>)
    ensures forall s :: multiset(r)[s] == if s.form == form then multiset(store)[s] else 0
    ensures forall i, j :: 0 <= i < j < |r| ==> r[i].submittedAt <= r[j].submittedAt
  {
    var r := Sort(env, BySubmittedAt(false), Filter(store, (s: Submission) => s.form == form));
    assert forall i, j :: 0 <= i < j < |r| ==> Le(env, BySubmittedAt(false), r[i], r[j]);
    r
  }

  // ---------------------------------------------------------------------------
  // Class options of the submissions page
  // ---------------------------------------------------------------------------

  /** Strictly increasing in code-point order: sorted and free of duplicates. */
  predicate StrictlySorted(xs: seq<string>) {
    forall i, j :: 0 <= i < j < |xs| ==> StrLess(xs[i], xs[j])
  }

  /** Adds `x` to a strictly sorted list, keeping it strictly sorted. */
  function InsertUnique(x: string, xs: seq<string>): (r: seq<string>)
    requires StrictlySorted(xs)
    ensures StrictlySorted(r)
    ensures forall y :: y in r <==> y == x || y in xs
  {
    if |xs| == 0 then [x]
    else if x == xs[0] then xs
    else if StrLess(x, xs[0]) then
      StrLessTransitiveFrom(x, xs);
      [x] + xs
    else
      StrLessTotal(x, xs[0]);
      var tail := InsertUnique(x, xs[1..]);
      assert forall y :: y in tail ==> StrLess(xs[0], y);
      [xs[0]] + tail
  }

  lemma StrLessTransitiveFrom(x: string, xs: seq<string>)
    requires StrictlySorted(xs) && |xs| > 0 && StrLess(x, xs[0])
    ensures forall j :: 0 <= j < |xs| ==> StrLess(x, xs[j])
  {
    forall j | 0 < j < |xs|
      ensures StrLess(x, xs[j])
    {
      StrLessTransitive(x, xs[0], xs[j]);
    }
  }

  /** `sorted(set(xs))` for strings. */
  function SortedDistinct(xs: seq<string>): (r: seq<string>)
    ensures StrictlySorted(r)
    ensures forall y :: y in r <==> y in xs
  {
    if |xs| == 0 then [] else InsertUnique(xs[0], SortedDistinct(xs[1..]))
  }

  /** The answer to the class field is a non-empty list (unhashable for `set`). */
  predicate ListAnswer(field: string, s: Submission) {
    field in s.data && s.data[field].List? && |s.data[field].items| > 0
  }

  /** The non-empty string answers to `field` that `filter(None, ...)` lets through, in row order. */
  function ClassAnswers(field: string, subs: seq<Submission>): (r: seq<string>)
    ensures forall x :: x in r <==> x != "" && exists s :: s in subs && ClassMatch(field, x, s)
  {
    if |subs| == 0 then []
    else
      var s := subs[0];
      var rest := ClassAnswers(field, subs[1..]);
      assert forall t :: t in subs <==> t == s || t in subs[1..];
      if field in s.data && s.data[field].Str? && s.data[field].s != "" then
        assert ClassMatch(field, s.data[field].s, s);
        [s.data[field].s] + rest
      else rest
  }

  datatype PageError = UnhashableList

  /** Some row answers the class field with a non-empty list. */
  predicate HasListAnswer(field: string, subs: seq<Submission>) {
    exists s :: s in subs && ListAnswer(field, s)
  }

  /** `classes` is sorted, duplicate-free, and holds exactly the non-empty string answers of `subs`. */
  ghost predicate ClassOptions(field: string, subs: seq<Submission>, classes: seq<string>) {
    && StrictlySorted(classes)
    && forall x :: x in classes <==> x != "" && exists s :: s in subs && ClassMatch(field, x, s)
  }

  /** Both properties depend only on which rows are present, not on their order. */
  lemma ClassesIgnoreOrder(field: string, a: seq<Submission>, b: seq<Submission>, classes: seq<string>)
    requires forall s :: s in a <==> s in b
    ensures HasListAnswer(field, a) <==> HasListAnswer(field, b)
    ensures ClassOptions(field, a, classes) <==> ClassOptions(field, b, classes)
  {
  }

  /**
    `sorted(set(filter(None, values)))` over the class answers of the
    filtered rows: the distinct non-empty strings, sorted. A non-empty list
    answer makes `set` raise, which the page does not catch.
   */
  function DistinctClasses(field: string, subs: seq<Submission>): (r: Result<seq<string>, PageError>)
    ensures r.Failure? <==> HasListAnswer(field, subs)
    ensures r.Success? ==> ClassOptions(field, subs, r.value)
  {
    if HasListAnswer(field, subs) then Failure(UnhashableList)
    else Success(SortedDistinct(ClassAnswers(field, subs)))
  }

  /** What the submissions page shows: rows, the class field and its filter options. */
  datatype Listing = Listing(rows: seq<Submission>, classField: Option<string>, classes: seq<string>)

  /**
    The submissions page of one template: the shared pipeline over the
    template's submissions, and, when the template has a class field, the
    class options found among the rows left after filtering.
   */
  function ViewSubmissions(env: Env, t: FormTemplate, store: seq<Submission>, req: Request)
    : (r: Result<Listing, PageError>)
    ensures r.Failure? <==> (&& ClassField(env, t.fields).Some? && ClassField(env, t.fields).value != ""
                             && HasListAnswer(ClassField(env, t.fields).value, Select(env, t.fields, FormSubmissions(env, store, t.id), req)))
    ensures r.Success? ==> r.value.rows == Select(env, t.fields, FormSubmissions(env, store, t.id), req)
    ensures r.Success? ==> r.value.classField == ClassField(env, t.fields)
    ensures r.Success? && (ClassField(env, t.fields).None? || ClassField(env, t.fields).value == "") ==>
              r.value.classes == []
    ensures r.Success? && ClassField(env, t.fields).Some? && ClassField(env, t.fields).value != "" ==>
              ClassOptions(ClassField(env, t.fields).value, r.value.rows, r.value.classes)
  {
    var subs := FormSubmissions(env, store, t.id);
    var narrowed := Narrow(env, t.fields, subs, req);
    var rows := Select(env, t.fields, subs, req);
    var field := ClassField(env, t.fields);
    if field.Some? && field.value != "" then
      assert forall s :: s in narrowed <==> s in rows by {
        assert multiset(rows) == multiset(narrowed);
      }
      var found := DistinctClasses(field.value, narrowed);
      ClassesIgnoreOrder(field.value, narrowed, rows, if found.Success? then found.value else []);
      var classes :- found;
      Success(Listing(rows, field, classes))
    else
      Success(Listing(rows, field, []))
  }
}

=== FILE: submit.dfy ===
/**
  The public submission endpoint: walk the template's fields in declared
  order, stop at the first required field left empty, collect the answers
  (checkbox groups as lists, missing optional files as null), name every
  uploaded file after the submission's 4-digit id, store the files and save
  the row.
 */
module Submit {
  import opened Base
  import opened Text
  import opened Models

  // ---------------------------------------------------------------------------
  // The request
  // ---------------------------------------------------------------------------

  /** An uploaded file; only its client-side name matters here. */
  datatype Upload = Upload(name: string)

  /** The POST body: every value sent per key (`getlist`), and the uploaded files. */
  datatype Posted = Posted(post: map<string, seq<string>>, files: map<string, Upload>)

  /** `request.POST.get(name)`: the last value sent, or `None`. */
  function PostGet(req: Posted, name: string): (r: Option<string>)
    ensures r.Some? <==> name in req.post && |req.post[name]| > 0
    ensures r.Some? ==> r.value == req.post[name][|req.post[name]| - 1]
  {
    if name in req.post && |req.post[name]| > 0 then Some(req.post[name][|req.post[name]| - 1]) else None
  }

  /** `request.POST.getlist(name)`: every value sent, or none. */
  function PostGetList(req: Posted, name: string): seq<string> {
    if name in req.post then req.post[name] else []
  }

  /** `request.FILES.get(name)` used as a condition: a file with an empty name counts as absent. */
  function FileGet(req: Posted, name: string): (r: Option<Upload>)
    ensures r.Some? <==> name in req.files && req.files[name].name != ""
    ensures r.Some? ==> r.value == req.files[name]
  {
    if name in req.files && req.files[name].name != "" then Some(req.files[name]) else None
  }

  // ---------------------------------------------------------------------------
  // Upload naming
  // ---------------------------------------------------------------------------

  const UploadDir: string := "extra_uploads/"

  /** `upload_to` of `original_photo`: the directory its file is saved under. */
  const OriginalPhotoDir: string := "original_photos/"

  /** `os.path.splitext(name)[1] or '.jpg'`. */
  function UploadExtension(name: string): (e: string)
    ensures IsExtension(e) && e != ""
    ensures Extension(name) != "" ==> e == Extension(name)
    ensures Extension(name) == "" ==> e == ".jpg"
  {
    var e := Extension(name);
    if e == "" then ".jpg" else e
  }

  /** `extra_uploads/{unique_id}{slugify(suffix)}{ext}`. */
  function UploadPath(env: Env, uid: nat, f: Field, u: Upload): string {
    UploadDir + StoredName(env, uid, f, UploadExtension(u.name))
  }

  /** A file waiting to be stored: its field, target path and whether it is a main photo. */
  datatype PendingFile = PendingFile(field: string, path: string, isMain: bool)

  /** The upload of field `f`, if one was sent, scheduled under its path. */
  function Pending(env: Env, uid: nat, req: Posted, f: Field): PendingFile
    requires FileGet(req, f.name).Some?
  {
    PendingFile(f.name, UploadPath(env, uid, f, FileGet(req, f.name).value), f.kind == PhotoKind)
  }

  // ---------------------------------------------------------------------------
  // The validation walk
  // ---------------------------------------------------------------------------

  /** The answers so far and the files scheduled so far. */
  datatype Draft = Draft(data: Data, files: seq<PendingFile>)

  /** The 400 answer: `{field} is required.` */
  datatype SubmitError = Required(field: string)

  function Message(e: SubmitError): string {
    e.field + " is required."
  }

  /** `f` is required and left empty: no file for a file field, a missing or empty value for a text field. */
  predicate Rejects(req: Posted, f: Field) {
    if IsFileKind(f.kind) then f.required && FileGet(req, f.name).None?
    else if f.kind == CheckboxKind then false
    else f.required && (PostGet(req, f.name).None? || PostGet(req, f.name).value == "")
  }

  /** The value the walk writes for `f`, or `None` for an uploaded file (written once stored). */
  function Answer(req: Posted, f: Field): Option<Value> {
    if IsFileKind(f.kind) then (if FileGet(req, f.name).Some? then None else Some(Null))
    else if f.kind == CheckboxKind then Some(List(PostGetList(req, f.name)))
    else match PostGet(req, f.name)
      case Some(v) => Some(Str(v))
      case None => Some(Null)
  }

  /** The effect of one accepted field on the draft. */
  function Step(env: Env, uid: nat, req: Posted, f: Field, d: Draft): Draft {
    if Uploaded(req, f) then
      d.(files := d.files + [Pending(env, uid, req, f)])
    else
      d.(data := d.data[f.name := Answer(req, f).value])
  }

  /** No later field has the same name as `fields[i]`. */
  predicate LastNamed(fields: seq<Field>, i: int)
    requires 0 <= i < |fields|
  {
    forall j :: i < j < |fields| ==> fields[j].name != fields[i].name
  }

  /** `fields[i]` is the first field the walk refuses. */
  predicate FirstRejected(req: Posted, fields: seq<Field>, i: int) {
    && 0 <= i < |fields|
    && Rejects(req, fields[i])
    && forall j :: 0 <= j < i ==> !Rejects(req, fields[j])
  }

  /** `f` is a file field and a file was sent for it. */
  predicate Uploaded(req: Posted, f: Field) {
    IsFileKind(f.kind) && FileGet(req, f.name).Some?
  }

  /** The uploads of `fields`, scheduled in declared order. */
  function Uploads(env: Env, uid: nat, req: Posted, fields: seq<Field>): seq<PendingFile> {
    if |fields| == 0 then []
    else
      (if Uploaded(req, fields[0]) then [Pending(env, uid, req, fields[0])] else [])
        + Uploads(env, uid, req, fields[1..])
  }

  /** Every sent file is scheduled. */
  lemma {:induction false} UploadsComplete(env: Env, uid: nat, req: Posted, fields: seq<Field>, i: int)
    requires 0 <= i < |fields| && Uploaded(req, fields[i])
    ensures Pending(env, uid, req, fields[i]) in Uploads(env, uid, req, fields)
    decreases |fields|
  {
    var rest := fields[1..];
    var head := if Uploaded(req, fields[0]) then [Pending(env, uid, req, fields[0])] else [];
    assert Uploads(env, uid, req, fields) == head + Uploads(env, uid, req, rest);
    if i == 0 {
      assert head == [Pending(env, uid, req, fields[i])];
    } else {
      assert rest[i - 1] == fields[i];
      UploadsComplete(env, uid, req, rest, i - 1);
    }
  }

  /** Only sent files are scheduled. */
  lemma {:induction false} UploadsSound(env: Env, uid: nat, req: Posted, fields: seq<Field>, p: PendingFile)
    requires p in Uploads(env, uid, req, fields)
    ensures exists i :: 0 <= i < |fields| && Uploaded(req, fields[i]) && p == Pending(env, uid, req, fields[i])
    decreases |fields|
  {
    if !(Uploaded(req, fields[0]) && p == Pending(env, uid, req, fields[0])) {
      UploadsSound(env, uid, req, fields[1..], p);
      var i :| 0 <= i < |fields| - 1 && Uploaded(req, fields[1..][i]) && p == Pending(env, uid, req, fields[1..][i]);
      assert fields[1..][i] == fields[i + 1];
    }
  }

  /** With distinct field names, no two scheduled files belong to the same field. */
  lemma {:induction false} UploadsDistinct(env: Env, uid: nat, req: Posted, fields: seq<Field>)
    requires DistinctNames(fields)
    ensures forall a, b :: 0 <= a < b < |Uploads(env, uid, req, fields)| ==>
              Uploads(env, uid, req, fields)[a].field != Uploads(env, uid, req, fields)[b].field
    decreases |fields|
  {
    if |fields| > 0 {
      var rest := fields[1..];
      assert DistinctNames(rest) by {
        assert forall k :: 0 <= k < |rest| ==> rest[k] == fields[k + 1];
      }
      UploadsDistinct(env, uid, req, rest);
      var tail := Uploads(env, uid, req, rest);
      forall p | p in tail
        ensures p.field != fields[0].name
      {
        UploadsSound(env, uid, req, rest, p);
        var i :| 0 <= i < |rest| && Uploaded(req, rest[i]) && p == Pending(env, uid, req, rest[i]);
        assert rest[i] == fields[i + 1];
      }
    }
  }

  /**
    The field loop of the submission view: it fails exactly when some
    required field is empty, and then names the first such field.
   */
  function Walk(env: Env, uid: nat, req: Posted, fields: seq<Field>, d: Draft): (r: Result<Draft, SubmitError>)
    ensures r.Failure? <==> exists i :: 0 <= i < |fields| && Rejects(req, fields[i])
    ensures r.Failure? ==> exists i :: FirstRejected(req, fields, i) && r.error == Required(fields[i].name)
    decreases |fields|
  {
    if |fields| == 0 then Success(d)
    else if Rejects(req, fields[0]) then
      assert FirstRejected(req, fields, 0);
      Failure(Required(fields[0].name))
    else
      var rest := fields[1..];
      var r := Walk(env, uid, req, rest, Step(env, uid, req, fields[0], d));
      assert forall k :: 0 <= k < |rest| ==> rest[k] == fields[k + 1];
      assert r.Failure? ==> exists i :: FirstRejected(req, fields, i) && r.error == Required(fields[i].name) by {
        if r.Failure? {
          var i :| FirstRejected(req, rest, i) && r.error == Required(rest[i].name);
          assert FirstRejected(req, fields, i + 1);
        }
      }
      r
  }

  /** An accepted walk schedules exactly the sent files, in declared order, after those already scheduled. */
  lemma {:induction false} WalkFiles(env: Env, uid: nat, req: Posted, fields: seq<Field>, d: Draft)
    requires Walk(env, uid, req, fields, d).Success?
    ensures Walk(env, uid, req, fields, d).value.files == d.files + Uploads(env, uid, req, fields)
    decreases |fields|
  {
    if |fields| > 0 {
      WalkFiles(env, uid, req, fields[1..], Step(env, uid, req, fields[0], d));
    }
  }

  /** An accepted walk never drops a key. */
  lemma {:induction false} WalkKeepsKeys(env: Env, uid: nat, req: Posted, fields: seq<Field>, d: Draft, k: string)
    requires Walk(env, uid, req, fields, d).Success?
    requires k in d.data
    ensures k in Walk(env, uid, req, fields, d).value.data
    decreases |fields|
  {
    if |fields| > 0 {
      WalkKeepsKeys(env, uid, req, fields[1..], Step(env, uid, req, fields[0], d), k);
    }
  }

  /** An accepted walk leaves a key alone that no field is named after. */
  lemma {:induction false} WalkKeepsOthers(env: Env, uid: nat, req: Posted, fields: seq<Field>, d: Draft, k: string)
    requires Walk(env, uid, req, fields, d).Success?
    requires forall i :: 0 <= i < |fields| ==> fields[i].name != k
    ensures k in Walk(env, uid, req, fields, d).value.data <==> k in d.data
    ensures k in d.data ==> Walk(env, uid, req, fields, d).value.data[k] == d.data[k]
    decreases |fields|
  {
    if |fields| > 0 {
      var rest := fields[1..];
      assert forall j :: 0 <= j < |rest| ==> rest[j] == fields[j + 1];
      WalkKeepsOthers(env, uid, req, rest, Step(env, uid, req, fields[0], d), k);
    }
  }

  /**
    An accepted walk records the answer of every field that is not an
    upload; of several fields with one name, the last one wins.
   */
  lemma {:induction false} WalkRecords(env: Env, uid: nat, req: Posted, fields: seq<Field>, d: Draft, i: int)
    requires Walk(env, uid, req, fields, d).Success?
    requires 0 <= i < |fields| && !Uploaded(req, fields[i])
    ensures fields[i].name in Walk(env, uid, req, fields, d).value.data
    ensures LastNamed(fields, i) ==> Walk(env, uid, req, fields, d).value.data[fields[i].name] == Answer(req, fields[i]).value
    decreases |fields|
  {
    var rest := fields[1..];
    var d' := Step(env, uid, req, fields[0], d);
    assert Walk(env, uid, req, fields, d) == Walk(env, uid, req, rest, d');
    assert forall j :: 0 <= j < |rest| ==> rest[j] == fields[j + 1];
    if i == 0 {
      WalkKeepsKeys(env, uid, req, rest, d', fields[0].name);
      if LastNamed(fields, 0) {
        WalkKeepsOthers(env, uid, req, rest, d', fields[0].name);
      }
    } else {
      WalkRecords(env, uid, req, rest, d', i - 1);
    }
  }

  /** The walk over a template's fields from an empty draft. */
  function Validate(env: Env, uid: nat, req: Posted, fields: seq<Field>): Result<Draft, SubmitError> {
    Walk(env, uid, req, fields, Draft(map[], []))
  }

  /** The declared field names. */
  function FieldNames(fields: seq<Field>): set<string> {
    set i | 0 <= i < |fields| :: fields[i].name
  }

  /** The walk writes no key other than the names of the fields it walks. */
  lemma {:induction false} WalkKeysWithin(env: Env, uid: nat, req: Posted, fields: seq<Field>, d: Draft)
    requires Walk(env, uid, req, fields, d).Success?
    ensures Walk(env, uid, req, fields, d).value.data.Keys <= d.data.Keys + FieldNames(fields)
    decreases |fields|
  {
    if |fields| > 0 {
      var rest := fields[1..];
      var d' := Step(env, uid, req, fields[0], d);
      assert Walk(env, uid, req, fields, d) == Walk(env, uid, req, rest, d');
      WalkKeysWithin(env, uid, req, rest, d');
      assert d'.data.Keys <= d.data.Keys + {fields[0].name};
      assert FieldNames(rest) <= FieldNames(fields) by {
        forall n | n in FieldNames(rest)
          ensures n in FieldNames(fields)
        {
          var k :| 0 <= k < |rest| && rest[k].name == n;
          assert fields[k + 1] == rest[k];
        }
      }
      assert fields[0].name in FieldNames(fields);
    }
  }

  /**
    A checkbox group in any template is never refused, whatever was sent,
    and an accepted submission records it as the list of values sent.
   */
  lemma CheckboxesNeverRejected(env: Env, uid: nat, req: Posted, fields: seq<Field>, i: int)
    requires 0 <= i < |fields| && fields[i].kind == CheckboxKind
    ensures !Rejects(req, fields[i])
    ensures forall j :: FirstRejected(req, fields, j) ==> j != i
    ensures Validate(env, uid, req, fields).Success? ==> fields[i].name in Validate(env, uid, req, fields).value.data
    ensures Validate(env, uid, req, fields).Success? && LastNamed(fields, i) ==>
              Validate(env, uid, req, fields).value.data[fields[i].name] == List(PostGetList(req, fields[i].name))
  {
    if Validate(env, uid, req, fields).Success? {
      WalkRecords(env, uid, req, fields, Draft(map[], []), i);
    }
  }

  // ---------------------------------------------------------------------------
  // The photo check after the walk
  // ---------------------------------------------------------------------------

  /** Names of the required photo fields, in declared order. */
  function RequiredPhotos(fields: seq<Field>): (r: seq<string>)
    ensures forall n :: n in r <==> exists i :: 0 <= i < |fields| && fields[i].kind == PhotoKind
                                                && fields[i].required && fields[i].name == n
  {
    if |fields| == 0 then []
    else
      assert forall k :: 0 <= k < |fields| - 1 ==> fields[1..][k] == fields[k + 1];
      (if fields[0].kind == PhotoKind && fields[0].required then [fields[0].name] else [])
        + RequiredPhotos(fields[1..])
  }

  /** The check after the loop: some photo field is required, but none of them has a scheduled file. */
  predicate PhotoCheckFails(fields: seq<Field>, files: seq<PendingFile>) {
    |RequiredPhotos(fields)| > 0 && !exists p :: p in files && p.field in RequiredPhotos(fields)
  }

  /**
    Once the walk has accepted the fields, the photo check cannot fire:
    an empty required photo field was already refused by the walk.
   */
  lemma PhotoCheckNeverFires(env: Env, uid: nat, req: Posted, fields: seq<Field>)
    requires Validate(env, uid, req, fields).Success?
    ensures !PhotoCheckFails(fields, Validate(env, uid, req, fields).value.files)
  {
    var files := Validate(env, uid, req, fields).value.files;
    var photos := RequiredPhotos(fields);
    if |photos| > 0 {
      assert photos[0] in photos;
      var i :| 0 <= i < |fields| && fields[i].kind == PhotoKind && fields[i].required && fields[i].name == photos[0];
      assert !Rejects(req, fields[i]);
      WalkFiles(env, uid, req, fields, Draft(map[], []));
      UploadsComplete(env, uid, req, fields, i);
      var p := Pending(env, uid, req, fields[i]);
      assert p in files && p.field in photos;
    }
  }

  // ---------------------------------------------------------------------------
  // Storing the files and saving the row
  // ---------------------------------------------------------------------------

  /** No later scheduled file belongs to the same field as `files[i]`. */
  predicate LastFile(files: seq<PendingFile>, i: int)
    requires 0 <= i < |files|
  {
    forall j :: i < j < |files| ==> files[j].field != files[i].field
  }

  /**
    Stores every scheduled file in order and records its URL as the field's
    answer; no answer is dropped.
   */
  function StoreFiles(env: Env, data: Data, files: seq<PendingFile>): (r: Data)
    ensures data.Keys <= r.Keys
    decreases |files|
  {
    if |files| == 0 then data
    else StoreFiles(env, data[files[0].field := Str(env.fileUrl(files[0].path))], files[1..])
  }

  /** The fields the scheduled files belong to. */
  function FileFields(files: seq<PendingFile>): set<string> {
    set i | 0 <= i < |files| :: files[i].field
  }

  /** Storing the files adds no key other than the fields the files belong to. */
  lemma {:induction false} StoreFilesKeysWithin(env: Env, data: Data, files: seq<PendingFile>)
    ensures StoreFiles(env, data, files).Keys <= data.Keys + FileFields(files)
    decreases |files|
  {
    if |files| > 0 {
      var rest := files[1..];
      var data' := data[files[0].field := Str(env.fileUrl(files[0].path))];
      StoreFilesKeysWithin(env, data', rest);
      assert FileFields(rest) <= FileFields(files) by {
        forall n | n in FileFields(rest)
          ensures n in FileFields(files)
        {
          var k :| 0 <= k < |rest| && rest[k].field == n;
          assert files[k + 1] == rest[k];
        }
      }
      assert files[0].field in FileFields(files);
    }
  }

  /** An answer no scheduled file belongs to is kept as it was. */
  lemma {:induction false} StoreFilesKeeps(env: Env, data: Data, files: seq<PendingFile>, k: string)
    requires forall i :: 0 <= i < |files| ==> files[i].field != k
    ensures k in StoreFiles(env, data, files) <==> k in data
    ensures k in data ==> StoreFiles(env, data, files)[k] == data[k]
    decreases |files|
  {
    if |files| > 0 {
      var rest := files[1..];
      assert forall i :: 0 <= i < |rest| ==> rest[i] == files[i + 1];
      StoreFilesKeeps(env, data[files[0].field := Str(env.fileUrl(files[0].path))], rest, k);
    }
  }

  /** Every field a file is scheduled for gets an answer. */
  lemma {:induction false} StoreFilesCovers(env: Env, data: Data, files: seq<PendingFile>, i: int)
    requires 0 <= i < |files|
    ensures files[i].field in StoreFiles(env, data, files)
    decreases |files|
  {
    if i > 0 {
      assert files[1..][i - 1] == files[i];
      StoreFilesCovers(env, data[files[0].field := Str(env.fileUrl(files[0].path))], files[1..], i - 1);
    }
  }

  /** The last file scheduled for a field decides its answer: the URL of the stored path. */
  lemma {:induction false} StoreFilesWrites(env: Env, data: Data, files: seq<PendingFile>, i: int)
    requires 0 <= i < |files| && LastFile(files, i)
    ensures files[i].field in StoreFiles(env, data, files)
    ensures StoreFiles(env, data, files)[files[i].field] == Str(env.fileUrl(files[i].path))
    decreases |files|
  {
    var rest := files[1..];
    var data' := data[files[0].field := Str(env.fileUrl(files[0].path))];
    assert forall j :: 0 <= j < |rest| ==> rest[j] == files[j + 1];
    if i == 0 {
      StoreFilesKeeps(env, data', rest, files[0].field);
    } else {
      StoreFilesWrites(env, data', rest, i - 1);
    }
  }

  /**
    The name `original_photo` is saved under: the path of the first
    scheduled main photo, placed in the field's `upload_to` directory.
   */
  function MainPhoto(files: seq<PendingFile>): (r: Option<string>)
    ensures r.Some? <==> exists i :: 0 <= i < |files| && files[i].isMain
    ensures r.Some? ==> exists i :: 0 <= i < |files| && files[i].isMain && r.value == OriginalPhotoDir + files[i].path
                                    && forall j :: 0 <= j < i ==> !files[j].isMain
  {
    if |files| == 0 then None
    else if files[0].isMain then Some(OriginalPhotoDir + files[0].path)
    else
      var r := MainPhoto(files[1..]);
      assert forall k :: 0 <= k < |files| - 1 ==> files[1..][k] == files[k + 1];
      r
  }

  /** Field names are pairwise distinct. */
  predicate DistinctNames(fields: seq<Field>) {
    forall i, j :: 0 <= i < j < |fields| ==> fields[i].name != fields[j].name
  }

  /** The answer a field ends up with in the saved row. */
  function Recorded(env: Env, uid: nat, req: Posted, f: Field): (r: Value)
    ensures IsFileKind(f.kind) && FileGet(req, f.name).Some? ==>
              r == Str(env.fileUrl(UploadDir + StoredName(env, uid, f, UploadExtension(req.files[f.name].name))))
    ensures IsFileKind(f.kind) && FileGet(req, f.name).None? ==> r == Null
    ensures f.kind == CheckboxKind ==> r == List(PostGetList(req, f.name))
    ensures !IsFileKind(f.kind) && f.kind != CheckboxKind ==>
              r == (if f.name in req.post && |req.post[f.name]| > 0 then Str(req.post[f.name][|req.post[f.name]| - 1]) else Null)
  {
    if Uploaded(req, f) then Str(env.fileUrl(Pending(env, uid, req, f).path))
    else Answer(req, f).GetOr(Null)
  }

  /**
    The POST branch of the submission view. A refused field leaves the
    store as it was; an accepted submission is appended under a fresh
    4-digit id, with an answer for every declared field.
   */
  method SubmitForm(env: Env, store: seq<Submission>, t: FormTemplate, req: Posted, rowId: nat, now: int)
    returns (next: seq<Submission>, r: Result<Submission, SubmitError>)
    requires UniquePerForm(store)
    requires IdAvailable(UsedIds(store, t.id))
    requires forall s :: s in store ==> s.id != rowId
    ensures r.Failure? ==> next == store
    ensures r.Failure? <==> exists i :: 0 <= i < |t.fields| && Rejects(req, t.fields[i])
    ensures r.Failure? ==> exists i :: FirstRejected(req, t.fields, i) && r.error == Required(t.fields[i].name)
                                       && Message(r.error) == t.fields[i].name + " is required."
    ensures r.Success? ==> next == store + [r.value] && UniquePerForm(next)
    ensures r.Success? ==> r.value.form == t.id && r.value.id == rowId && r.value.submittedAt == now
    ensures r.Success? ==> r.value.uniqueId.Some? && MinUniqueId <= r.value.uniqueId.value <= MaxUniqueId
                           && r.value.uniqueId.value !in UsedIds(store, t.id)
    ensures r.Success? ==> forall i :: 0 <= i < |t.fields| ==> t.fields[i].name in r.value.data
    ensures r.Success? && DistinctNames(t.fields) ==> forall i :: 0 <= i < |t.fields| ==>
              r.value.data[t.fields[i].name] == Recorded(env, r.value.uniqueId.value, req, t.fields[i])
    ensures r.Success? ==> (r.value.photo.Some? <==> PhotoSent(req, t.fields))
    ensures r.Success? ==> r.value.photo == MainPhoto(Uploads(env, r.value.uniqueId.value, req, t.fields))
    ensures r.Success? ==> r.value.data.Keys == FieldNames(t.fields)
  {
    var uid := GenerateUniqueId(store, t.id);
    var walked := Validate(env, uid, req, t.fields);
    if walked.Failure? {
      next, r := store, Failure(walked.error);
      return;
    }
    var draft := walked.value;
    PhotoCheckNeverFires(env, uid, req, t.fields);
    var data := StoreFiles(env, draft.data, draft.files);
    var sub := Submission(rowId, t.id, data, MainPhoto(draft.files), now, Some(uid));
    assert !HasRow(store, SubmissionPk, rowId) by {
      assert forall i :: 0 <= i < |store| ==> store[i] in store;
    }
    var saved, row := SaveSubmission(store, sub);
    next, r := saved.value, Success(row);
    AnswersRecorded(env, uid, req, t.fields, draft);
    MainPhotoPresent(env, uid, req, t.fields, draft);
    ValidateFiles(env, uid, req, t.fields, draft);
    SavedKeys(env, uid, req, t.fields, draft);
  }

  /** Some photo field had a file sent. */
  predicate PhotoSent(req: Posted, fields: seq<Field>) {
    exists i :: 0 <= i < |fields| && fields[i].kind == PhotoKind && Uploaded(req, fields[i])
  }

  /** A main photo is saved exactly when some photo field had a file sent. */
  lemma MainPhotoPresent(env: Env, uid: nat, req: Posted, fields: seq<Field>, draft: Draft)
    requires Validate(env, uid, req, fields) == Success(draft)
    ensures MainPhoto(draft.files).Some? <==> PhotoSent(req, fields)
  {
    WalkFiles(env, uid, req, fields, Draft(map[], []));
    assert draft.files == [] + Uploads(env, uid, req, fields);
    assert draft.files == Uploads(env, uid, req, fields);
    UploadsMainPhoto(env, uid, req, fields);
  }

  /** Some scheduled file is a main photo exactly when some photo field had a file sent. */
  lemma {:induction false} UploadsMainPhoto(env: Env, uid: nat, req: Posted, fields: seq<Field>)
    ensures MainPhoto(Uploads(env, uid, req, fields)).Some? <==> PhotoSent(req, fields)
    decreases |fields|
  {
    if |fields| > 0 {
      var rest := fields[1..];
      UploadsMainPhoto(env, uid, req, rest);
      var tail := Uploads(env, uid, req, rest);
      var all := Uploads(env, uid, req, fields);
      var here := fields[0].kind == PhotoKind && Uploaded(req, fields[0]);
      assert PhotoSent(req, fields) <==> here || PhotoSent(req, rest) by {
        assert forall j :: 0 <= j < |rest| ==> rest[j] == fields[j + 1];
        if PhotoSent(req, fields) && !here {
          var i :| 0 <= i < |fields| && fields[i].kind == PhotoKind && Uploaded(req, fields[i]);
          assert rest[i - 1] == fields[i];
        }
      }
      if Uploaded(req, fields[0]) {
        assert all == [Pending(env, uid, req, fields[0])] + tail;
        assert all[0].isMain == here;
        assert all[1..] == tail;
      } else {
        assert all == tail;
      }
    }
  }

  /** Every declared field has an answer in the saved data, and with distinct names it is the recorded one. */
  lemma AnswersRecorded(env: Env, uid: nat, req: Posted, fields: seq<Field>, draft: Draft)
    requires Validate(env, uid, req, fields) == Success(draft)
    ensures forall i :: 0 <= i < |fields| ==> fields[i].name in StoreFiles(env, draft.data, draft.files)
    ensures DistinctNames(fields) ==> forall i :: 0 <= i < |fields| ==>
              StoreFiles(env, draft.data, draft.files)[fields[i].name] == Recorded(env, uid, req, fields[i])
  {
    forall i | 0 <= i < |fields|
      ensures fields[i].name in StoreFiles(env, draft.data, draft.files)
      ensures DistinctNames(fields) ==>
              StoreFiles(env, draft.data, draft.files)[fields[i].name] == Recorded(env, uid, req, fields[i])
    {
      FieldRecorded(env, uid, req, fields, draft, i);
    }
  }

  /** The saved answer of one field. */
  lemma FieldRecorded(env: Env, uid: nat, req: Posted, fields: seq<Field>, draft: Draft, i: int)
    requires Validate(env, uid, req, fields) == Success(draft)
    requires 0 <= i < |fields|
    ensures fields[i].name in StoreFiles(env, draft.data, draft.files)
    ensures DistinctNames(fields) ==>
              StoreFiles(env, draft.data, draft.files)[fields[i].name] == Recorded(env, uid, req, fields[i])
  {
    ValidateFiles(env, uid, req, fields, draft);
    if Uploaded(req, fields[i]) {
      UploadRecorded(env, uid, req, fields, draft.data, i);
    } else {
      WalkRecords(env, uid, req, fields, Draft(map[], []), i);
      AnswerRecorded(env, uid, req, fields, draft.data, i);
    }
  }

  /** The saved answers have exactly the declared field names as keys. */
  lemma SavedKeys(env: Env, uid: nat, req: Posted, fields: seq<Field>, draft: Draft)
    requires Validate(env, uid, req, fields) == Success(draft)
    ensures StoreFiles(env, draft.data, draft.files).Keys == FieldNames(fields)
  {
    var saved := StoreFiles(env, draft.data, draft.files);
    AnswersRecorded(env, uid, req, fields, draft);
    WalkKeysWithin(env, uid, req, fields, Draft(map[], []));
    StoreFilesKeysWithin(env, draft.data, draft.files);
    ValidateFiles(env, uid, req, fields, draft);
    assert FileFields(draft.files) <= FieldNames(fields) by {
      forall n | n in FileFields(draft.files)
        ensures n in FieldNames(fields)
      {
        var j :| 0 <= j < |draft.files| && draft.files[j].field == n;
        UploadsSound(env, uid, req, fields, draft.files[j]);
      }
    }
    assert FieldNames(fields) <= saved.Keys;
  }

  /** An accepted validation schedules exactly the sent files. */
  lemma ValidateFiles(env: Env, uid: nat, req: Posted, fields: seq<Field>, draft: Draft)
    requires Validate(env, uid, req, fields) == Success(draft)
    ensures draft.files == Uploads(env, uid, req, fields)
  {
    WalkFiles(env, uid, req, fields, Draft(map[], []));
    assert draft.files == [] + Uploads(env, uid, req, fields);
  }

  /** The answer of a field whose file was sent is the URL of its stored path. */
  lemma UploadRecorded(env: Env, uid: nat, req: Posted, fields: seq<Field>, data: Data, i: int)
    requires 0 <= i < |fields| && Uploaded(req, fields[i])
    ensures fields[i].name in StoreFiles(env, data, Uploads(env, uid, req, fields))
    ensures DistinctNames(fields) ==>
              StoreFiles(env, data, Uploads(env, uid, req, fields))[fields[i].name] == Recorded(env, uid, req, fields[i])
  {
    var files := Uploads(env, uid, req, fields);
    UploadsComplete(env, uid, req, fields, i);
    var k :| 0 <= k < |files| && files[k] == Pending(env, uid, req, fields[i]);
    StoreFilesCovers(env, data, files, k);
    if DistinctNames(fields) {
      UploadsDistinct(env, uid, req, fields);
      StoreFilesWrites(env, data, files, k);
    }
  }

  /** With distinct names, the answer the walk wrote for a field without an upload survives storing the files. */
  lemma AnswerRecorded(env: Env, uid: nat, req: Posted, fields: seq<Field>, data: Data, i: int)
    requires 0 <= i < |fields| && !Uploaded(req, fields[i])
    requires fields[i].name in data
    requires DistinctNames(fields) ==> data[fields[i].name] == Answer(req, fields[i]).value
    ensures fields[i].name in StoreFiles(env, data, Uploads(env, uid, req, fields))
    ensures DistinctNames(fields) ==>
              StoreFiles(env, data, Uploads(env, uid, req, fields))[fields[i].name] == Recorded(env, uid, req, fields[i])
  {
    var files := Uploads(env, uid, req, fields);
    if DistinctNames(fields) {
      forall j | 0 <= j < |files|
        ensures files[j].field != fields[i].name
      {
        assert files[j] in files;
        UploadsSound(env, uid, req, fields, files[j]);
      }
      StoreFilesKeeps(env, data, files, fields[i].name);
    }
  }
}

=== FILE: text.dfy ===
/**
  String helpers that the application relies on from Python itself:
  substring search (`in`, `str.split(sep, 1)`), `str(int)`, `", ".join`,
  code-point ordering of strings (`sorted`), `os.path.splitext` and
  `os.path.join` on POSIX paths.
 */
module Text {

  // ---------------------------------------------------------------------------
  // Substring search
  // ---------------------------------------------------------------------------

  /** `needle` occurs in `hay` starting at index `i`. */
  predicate OccursAt(hay: string, needle: string, i: int) {
    0 <= i && i + |needle| <= |hay| && hay[i..i + |needle|] == needle
  }

  /** Python's `needle in hay` for strings. */
  predicate Contains(hay: string, needle: string) {
    exists i :: 0 <= i <= |hay| - |needle| && OccursAt(hay, needle, i)
  }

  /** Index of the first occurrence of `needle` in `hay` at or after `from`, or -1 (`str.find`). */
  function FindFrom(hay: string, needle: string, from: nat): (r: int)
    ensures r == -1 || (from <= r && OccursAt(hay, needle, r))
    ensures forall i :: from <= i && (r == -1 || i < r) ==> !OccursAt(hay, needle, i)
    decreases |hay| - from
  {
    if from + |needle| > |hay| then -1
    else if hay[from..from + |needle|] == needle then from
    else FindFrom(hay, needle, from + 1)
  }

  /** `Contains` is exactly "the search finds something". */
  lemma FindIffContains(hay: string, needle: string)
    ensures Contains(hay, needle) <==> FindFrom(hay, needle, 0) >= 0
  {
    var r := FindFrom(hay, needle, 0);
    if r >= 0 {
      assert OccursAt(hay, needle, r);
    }
  }

  /** What follows the first occurrence of `needle`: `hay.split(needle, 1)[1]`. */
  function After(hay: string, needle: string): (r: string)
    requires Contains(hay, needle)
    ensures exists i :: 0 <= i && i + |needle| + |r| == |hay| && hay == hay[..i] + needle + r
                        && forall j :: 0 <= j < i ==> !OccursAt(hay, needle, j)
  {
    FindIffContains(hay, needle);
    var i := FindFrom(hay, needle, 0);
    assert hay == hay[..i] + hay[i..i + |needle|] + hay[i + |needle|..];
    hay[i + |needle|..]
  }

  // ---------------------------------------------------------------------------
  // Decimal rendering of natural numbers: `str(n)` / an f-string `{n}`
  // ---------------------------------------------------------------------------

  predicate IsDigit(c: char) {
    '0' <= c <= '9'
  }

  predicate AllDigits(s: string) {
    forall i :: 0 <= i < |s| ==> IsDigit(s[i])
  }

  function DigitChar(d: nat): (c: char)
    requires d < 10
    ensures IsDigit(c) && (c as int) - ('0' as int) == d
  {
    ('0' as int + d) as char
  }

  /** The canonical decimal rendering of `n`: digits only, no leading zero. */
  function Decimal(n: nat): (s: string)
    ensures 1 <= |s| && AllDigits(s)
    ensures |s| > 1 ==> s[0] != '0'
    decreases n
  {
    if n < 10 then [DigitChar(n)] else Decimal(n / 10) + [DigitChar(n % 10)]
  }

  /** Reads a string of digits back as a number (`int(s)`). */
  function ParseDecimal(s: string): nat
    requires AllDigits(s)
  {
    if |s| == 0 then 0
    else 10 * ParseDecimal(s[..|s| - 1]) + ((s[|s| - 1] as int) - ('0' as int))
  }

  /** Parsing undoes rendering. */
  lemma {:induction false} ParseDecimalOfDecimal(n: nat)
    ensures ParseDecimal(Decimal(n)) == n
    decreases n
  {
    var s := Decimal(n);
    if n >= 10 {
      ParseDecimalOfDecimal(n / 10);
      assert s[..|s| - 1] == Decimal(n / 10);
    }
  }

  /** Distinct numbers render differently. */
  lemma DecimalInjective(a: nat, b: nat)
    ensures Decimal(a) == Decimal(b) ==> a == b
  {
    ParseDecimalOfDecimal(a);
    ParseDecimalOfDecimal(b);
  }

  /** A four-digit number renders as exactly four characters. */
  lemma {:induction false} DecimalOfFourDigits(n: nat)
    requires 1000 <= n <= 9999
    ensures |Decimal(n)| == 4
  {
    assert |Decimal(n / 1000)| == 1;
    assert |Decimal(n / 100)| == 2;
    assert |Decimal(n / 10)| == 3;
  }

  // ---------------------------------------------------------------------------
  // Joining: `sep.join(items)`
  // ---------------------------------------------------------------------------

  function Join(sep: string, items: seq<string>): string
  {
    if |items| == 0 then ""
    else if |items| == 1 then items[0]
    else items[0] + sep + Join(sep, items[1..])
  }

  /** Sum of the lengths of `items`. */
  function TotalLength(items: seq<string>): nat
  {
    if |items| == 0 then 0 else |items[0]| + TotalLength(items[1..])
  }

  /** The joined text is the items plus one separator between each neighbouring pair. */
  lemma {:induction false} JoinLength(sep: string, items: seq<string>)
    requires |items| > 0
    ensures |Join(sep, items)| == TotalLength(items) + |sep| * (|items| - 1)
    decreases |items|
  {
    if |items| > 1 {
      JoinLength(sep, items[1..]);
    }
  }

  /** Where item `i` starts in `Join(sep, items)`: the earlier items, each followed by a separator. */
  function JoinOffset(sep: string, items: seq<string>, i: nat): nat
    requires i <= |items|
  {
    if i == 0 then 0 else |items[0]| + |sep| + JoinOffset(sep, items[1..], i - 1)
  }

  /** A slice of `x + y` that lies within `y`. */
  lemma SliceOfSuffix(x: string, y: string, lo: nat, hi: nat)
    requires lo <= hi <= |y|
    ensures (x + y)[|x| + lo .. |x| + hi] == y[lo..hi]
  {
    assert forall k :: 0 <= k < hi - lo ==> (x + y)[|x| + lo .. |x| + hi][k] == y[lo..hi][k];
  }

  /** The joined text holds item `i` at its offset, followed by the separator when another item comes next. */
  lemma {:induction false} JoinItems(sep: string, items: seq<string>, i: nat)
    requires i < |items|
    ensures JoinOffset(sep, items, i) + |items[i]| <= |Join(sep, items)|
    ensures Join(sep, items)[JoinOffset(sep, items, i) .. JoinOffset(sep, items, i) + |items[i]|] == items[i]
    ensures i + 1 < |items| ==>
              JoinOffset(sep, items, i + 1) == JoinOffset(sep, items, i) + |items[i]| + |sep| <= |Join(sep, items)|
              && Join(sep, items)[JoinOffset(sep, items, i) + |items[i]| .. JoinOffset(sep, items, i + 1)] == sep
    decreases i
  {
    var j := Join(sep, items);
    if |items| > 1 {
      var head := items[0] + sep;
      var rest := items[1..];
      assert j == head + Join(sep, rest);
      if i == 0 {
        assert JoinOffset(sep, rest, 0) == 0;
        assert j[..|items[0]|] == items[0];
        assert j[|items[0]| .. |head|] == sep;
      } else {
        JoinItems(sep, rest, i - 1);
        assert rest[i - 1] == items[i];
        var lo := JoinOffset(sep, rest, i - 1);
        SliceOfSuffix(head, Join(sep, rest), lo, lo + |items[i]|);
        if i + 1 < |items| {
          SliceOfSuffix(head, Join(sep, rest), lo + |items[i]|, JoinOffset(sep, rest, i));
        }
      }
    }
  }

  /** Appending one item appends a separator and that item. */
  lemma {:induction false} JoinSnoc(sep: string, items: seq<string>, x: string)
    requires |items| > 0
    ensures Join(sep, items + [x]) == Join(sep, items) + sep + x
    decreases |items|
  {
    if |items| == 1 {
      assert (items + [x])[1..] == [x];
    } else {
      assert (items + [x])[1..] == items[1..] + [x];
      JoinSnoc(sep, items[1..], x);
    }
  }

  // ---------------------------------------------------------------------------
  // Code-point ordering of strings (Python's `<` on `str`)
  // ---------------------------------------------------------------------------

  predicate StrLess(a: string, b: string)
    decreases |a|
  {
    if |b| == 0 then false
    else if |a| == 0 then true
    else if a[0] != b[0] then a[0] < b[0]
    else StrLess(a[1..], b[1..])
  }

  lemma {:induction false} StrLessIrreflexive(a: string)
    ensures !StrLess(a, a)
    decreases |a|
  {
    if |a| > 0 {
      StrLessIrreflexive(a[1..]);
    }
  }

  lemma {:induction false} StrLessTransitive(a: string, b: string, c: string)
    requires StrLess(a, b) && StrLess(b, c)
    ensures StrLess(a, c)
    decreases |a|
  {
    if |a| > 0 && a[0] == b[0] && b[0] == c[0] {
      StrLessTransitive(a[1..], b[1..], c[1..]);
    }
  }

  lemma {:induction false} StrLessTotal(a: string, b: string)
    ensures a == b || StrLess(a, b) || StrLess(b, a)
    decreases |a|
  {
    if |a| > 0 && |b| > 0 && a[0] == b[0] {
      StrLessTotal(a[1..], b[1..]);
      if a[1..] == b[1..] {
        assert a == [a[0]] + a[1..] && b == [b[0]] + b[1..];
      }
    }
  }

  // ---------------------------------------------------------------------------
  // POSIX path helpers: `os.path.splitext(p)[1]` and `os.path.join(a, b)`
  // ---------------------------------------------------------------------------

  /** `p.rfind(c)`: index of the last `c`, or -1. */
  function LastIndexOf(p: string, c: char): (r: int)
    ensures -1 <= r < |p|
    ensures r >= 0 ==> p[r] == c
    ensures forall k :: r < k < |p| ==> p[k] != c
  {
    if |p| == 0 then -1
    else if p[|p| - 1] == c then |p| - 1
    else LastIndexOf(p[..|p| - 1], c)
  }

  /** Some character of `p[lo..hi]` is not a dot. */
  predicate HasNonDot(p: string, lo: int, hi: int)
    requires 0 <= lo && hi <= |p|
  {
    exists k :: lo <= k < hi && p[k] != '.'
  }

  /** A well-formed extension: empty, or a dot followed by no dot and no slash. */
  predicate IsExtension(e: string) {
    e == "" || (e[0] == '.' && forall k :: 1 <= k < |e| ==> e[k] != '.' && e[k] != '/')
  }

  /**
    `os.path.splitext(p)[1]`: the text from the last dot of the last path
    component, provided that dot is not part of a run of leading dots.
   */
  function Extension(p: string): (e: string)
    ensures |e| <= |p| && e == p[|p| - |e|..]
    ensures IsExtension(e)
    ensures e == "" <==> forall k :: LastIndexOf(p, '/') < k < |p| && p[k] == '.' ==>
                           !HasNonDot(p, LastIndexOf(p, '/') + 1, k)
  {
    var sep := LastIndexOf(p, '/');
    var dot := LastIndexOf(p, '.');
    if dot > sep && HasNonDot(p, sep + 1, dot) then p[dot..] else ""
  }

  /** The last component of `stem` is non-empty and holds no dot. */
  predicate PlainBasename(stem: string) {
    var sep := LastIndexOf(stem, '/');
    && sep + 1 < |stem|
    && stem[sep + 1] != '.'
    && forall k :: sep < k < |stem| ==> stem[k] != '.'
  }

  /** Appending a well-formed extension to a dot-free file name is undone by `Extension`. */
  lemma ExtensionOfAppend(stem: string, ext: string)
    requires PlainBasename(stem) && IsExtension(ext)
    ensures Extension(stem + ext) == ext
  {
    var p := stem + ext;
    assert forall k :: 0 <= k < |stem| ==> p[k] == stem[k];
    assert forall k :: |stem| <= k < |p| ==> p[k] == ext[k - |stem|];
    var sep := LastIndexOf(stem, '/');
    assert LastIndexOf(p, '/') == sep;
    var dot := LastIndexOf(p, '.');
    if ext == "" {
      assert p == stem;
    } else {
      assert p[|stem|] == '.';
      assert forall k :: |stem| < k < |p| ==> p[k] != '.';
      assert dot == |stem|;
      assert p[sep + 1] == stem[sep + 1];
      assert HasNonDot(p, sep + 1, dot);
      assert p[dot..] == ext;
    }
  }

  /** `os.path.join(a, b)` for two POSIX path components. */
  function PathJoin(a: string, b: string): (r: string)
    ensures |b| > 0 && b[0] == '/' ==> r == b
    ensures (|b| == 0 || b[0] != '/') ==> |r| >= |b| && r[|r| - |b|..] == b
    ensures (|b| == 0 || b[0] != '/') && |a| > 0 && a[|a| - 1] != '/' ==> r == a + "/" + b
  {
    if |b| > 0 && b[0] == '/' then b
    else if |a| == 0 || a[|a| - 1] == '/' then a + b
    else a + "/" + b
  }

  /** A relative `b` after an empty root, or after one ending in a slash, is joined without a new slash. */
  lemma PathJoinAfterSlash(a: string, b: string)
    requires |b| == 0 || b[0] != '/'
    requires |a| == 0 || a[|a| - 1] == '/'
    ensures PathJoin(a, b) == a + b
  {
  }

}
